=== FILE: README.md ===
# ktg_storage, modelled in Dafny

`ktg_storage` is a Django app that keeps metadata about uploaded files. Each file
is a `Storage` row: its original name, a generated storage name, its MIME type,
its owner, the path of its attachment, its completion, expiry and reminder times,
and a soft-delete flag. Files arrive in one of two ways:

- a standard upload, in one request;
- a direct upload, in three steps:
  - `start` stores a pending record and returns either a presigned S3 POST or a
    same-origin URL for a local upload;
  - the bytes go to S3 or to the local-upload endpoint;
  - `finish` marks the record complete.

Users list their files and their expired files, edit a file's dates and name, and
soft-delete it. A small S3 client wraps the boto3 calls, and the app checks at
start-up that the settings it needs exist.

The model is functional:

- the table is `map<Id, Storage>`;
- every request is a pure function from the table to a response and the table
  after it, or to the error that rolled the transaction back;
- the outside world comes in as parameters:
  - the clock, one instant per request;
  - the `uuid4().hex` token and the new primary key;
  - `mimetypes.guess_type`;
  - the presigner, a function that may fail;
  - the storage URL of a name;
- the S3 bucket is a map from key to object plus a map of injected client errors.

| module | file | models |
|---|---|---|
| `Common` | common.dfy | bytes, `Option`, `Result`, and the exceptions the app raises |
| `Uuids` | uuids.dfy | canonical UUID text (the primary key) and 32-digit hex tokens |
| `Text` | text.dfy | Python's whitespace and `str.strip()` |
| `Paths` | paths.dfy | `utils.py`: generated names (the pathlib suffix rule of Python 3.12), upload paths, the local-upload URL and its route |
| `Settings` | settings.dfy | `assert_settings`, `s3_get_credentials`, and the typed settings the services read |
| `ObjectStore` | objectstore.dfy | `S3Service` over an abstract bucket |
| `StorageNames` | storagenames.dfy | the name Django 4.2 stores an uploaded file under: `FieldFile.save`, `validate_file_name` and the storage's `generate_filename` and `get_valid_name` |
| `Records` | records.dfy | `Storage`, `full_clean()`/`save()` on the table, and the `FileManger` queries |
| `Services` | services.dfy | `services.py`: the size check, the standard upload service and the direct upload service |
| `Api` | api.dfy | `views.py` and `serializers.py`: the endpoints, with the serializers' validation |

Points where the code behaves otherwise than its names or comments suggest; the model follows the code:

- `finish` sets the completion time and nothing else. No thumbnail is made anywhere.
- `start` chooses S3 when `FILE_UPLOAD_STORAGE == "s3"` or `DEBUG` is false.
- Presigning is modelled as `S3Service.generate_presigned_post`. As written,
  `services.py` imports a module-level `s3_generate_presigned_post` that
  `client.py` does not define.
- Likewise `views.py` imports a `create_presigned_url` that does not exist, so the
  modules as written cannot be imported at all. The model takes the evident
  intent of both imports.
- An uploaded file is not stored under `files/<file_name>` as `upload_to` returns
  it. Django passes that path through the storage's `get_valid_name`, which strips
  the name, turns spaces into `_` and drops every character outside `[-\w.]`. A
  file named `scan.final draft` therefore gets the `file_name`
  `<token>.final draft` but the attachment `files/<token>.final_draft`.
- `full_clean()` checks uniqueness through `Storage.objects`, the `FileManger`
  that hides deleted rows, while the database constraint covers every row. A
  `file_name` or key held only by a deleted row therefore passes the clean and
  fails at `save()` with an IntegrityError.

## Model

| member | source | states |
|---|---|---|
| `Paths.FinalComponent` | ktg_storage/utils.py:12 | the final path component has no `/` and is never `.` |
| `Paths.Suffix` | ktg_storage/utils.py:12 | the extension is empty or a dot followed by one or more non-dot characters; it ends the final component and is shorter than it; it is empty exactly when the final component is empty, has no dot after its first character, or ends with a dot |
| `Paths.GenerateName` | ktg_storage/utils.py:11-14 | a generated name is at least the 32 token characters and at most the token plus the original's length, and has no `/` |
| `Paths.GeneratedNameIdentifiesToken` | ktg_storage/utils.py:14 | equal generated names have equal tokens, whatever the originals: distinct tokens give distinct names |
| `Paths.GeneratedNameWithoutExtension` | ktg_storage/utils.py:11-14 | a name with no extension (`README`, `.env`, `a.`) gives the bare 32-character token |
| `Paths.GeneratedNameKeepsExtension` | ktg_storage/utils.py:11-14 | the name generated from `stem.ext` is `token.ext`, so the stem is dropped |
| `Paths.FinalComponentIgnoresDirectory` | ktg_storage/utils.py:12 | putting any directory before a path leaves its final component unchanged |
| `Paths.GeneratedNameIgnoresDirectory` | ktg_storage/utils.py:12-14 | no directory part of the original reaches the generated name |
| `Paths.UploadPath` | ktg_storage/utils.py:17-18 | the upload path is `files/` followed by the record's `file_name`; the uploaded file's own name plays no part |
| `Paths.UploadPathRoundTrip` | ktg_storage/utils.py:17-18 | the `file_name` can be read back from an upload path, and only an upload path yields it |
| `Paths.ResolveLocalUploadUrl` | ktg_storage/urls.py:23-27 | `<str:file_id>` resolves to one non-empty segment without `/` |
| `Paths.LocalUploadUrl` | ktg_storage/utils.py:21-27 | the URL is the app domain, the mount point and the route, then the id and a closing `/`; for an id that is one segment it resolves back to that id |
| `Paths.LocalUploadUrlRoundTrip` | ktg_storage/utils.py:21-27 | the local-upload URL of an id resolves back to that id, and every URL resolving to the id is that URL |
| `Settings.Missing` | ktg_storage/client.py:16-22 | the missing names are exactly the required names absent from the settings |
| `Settings.MissingKeepsOrder` | ktg_storage/client.py:19-22 | missing names keep their input order: the missing names of a concatenation are those of each part, in turn |
| `Settings.Config.UploadsToS3` | ktg_storage/services.py:162-166 | `start` presigns an S3 POST when `FILE_UPLOAD_STORAGE` is `s3` or `DEBUG` is off, so local uploads happen only in debug with local storage; `Services.Start` returns a POST exactly then |
| `Settings.AssertSettings` | ktg_storage/client.py:14-36 | success iff every required setting exists, returning a map whose keys are exactly the required names, each bound to its setting; otherwise ImproperlyConfigured with the prefix (or the default when empty) and the missing names joined by ", " |
| `Settings.JoinContainsParts` | ktg_storage/client.py:30 | every name in a `", ".join` occurs in the joined text |
| `Settings.AssertSettingsNamesMissing` | ktg_storage/client.py:26-34 | every absent required name occurs in the error message |
| `Settings.S3GetCredentials` | ktg_storage/client.py:50-78 | credentials iff all twelve settings exist, holding the values of the seven it keeps; otherwise the error naming the missing ones |
| `ObjectStore.HeadObject` | ktg_storage/client.py:194 | `head_object` succeeds exactly on a stored key without an injected error, and fails with a client error otherwise |
| `ObjectStore.FileExists` | ktg_storage/client.py:192-200 | true when the head succeeds, false exactly on a 404, and any other client error propagates |
| `ObjectStore.FileExistsWithoutFault` | ktg_storage/client.py:192-200 | with no injected error, existence is membership of the key |
| `ObjectStore.GetFileSize` | ktg_storage/client.py:202-212 | 0 for an absent key, the stored length otherwise; fails only on a non-404 client error |
| `ObjectStore.GetFileUrl` | ktg_storage/client.py:219-224 | the object URL is always produced |
| `ObjectStore.FileUrlRoundTrip` | ktg_storage/client.py:219-224 | the key can be read back from its object URL, and only that URL gives it |
| `ObjectStore.GetFilePath` | ktg_storage/client.py:214-217 | the object URL when the key exists, none when absent; errors of `file_exists` propagate |
| `ObjectStore.CreatePresignedUrl` | ktg_storage/client.py:129-141 | signs with the configured expiry when `expires` and 0 otherwise; a URL iff signing succeeds |
| `ObjectStore.PostPolicyAdmits` | ktg_storage/client.py:109-123 | the POST policy admits an upload iff it sends the configured ACL and the file's Content-Type and is 1 to FILE_MAX_SIZE bytes |
| `ObjectStore.GetFileContent` | ktg_storage/client.py:226-239 | the stored bytes exactly when the head succeeds, none on any client error |
| `ObjectStore.GetFileMetadata` | ktg_storage/client.py:276-289 | size and content type of the object when the head succeeds, none otherwise |
| `ObjectStore.UploadFileobj` | ktg_storage/client.py:253-274 | succeeds iff the key has no injected error; on success the key holds the body and content type under the given ACL, or the service's default ACL when none or an empty one is given; only that key changes, and on failure nothing does |
| `ObjectStore.DeleteFile` | ktg_storage/client.py:184-190 | succeeds iff no injected error; removes just that key, present or not |
| `ObjectStore.CopyFile` | ktg_storage/client.py:165-182 | succeeds iff the source can be read and the destination has no error; the destination then holds the source's body and content type under the default `private` ACL (the copy passes no `ExtraArgs`), and no other key changes |
| `ObjectStore.UploadThenRead` | ktg_storage/client.py:253-274 | after an upload the key exists, with the uploaded bytes, their size, the content type in its metadata and its object URL |
| `ObjectStore.DeleteThenAbsent` | ktg_storage/client.py:184-190 | after a delete the key does not exist: no content, size 0, no path |
| `ObjectStore.CopyThenRead` | ktg_storage/client.py:165-182 | after a copy the destination reads as the source did: the same content, size and metadata |
| `StorageNames.CleanChars` | ktg_storage/models.py:56-58 | the character cleaning of `get_valid_name` never lengthens a name and leaves only `[-\w.]` characters |
| `StorageNames.CleanCharsKeeps` | ktg_storage/models.py:56-58 | a name of `[-\w.]` characters without spaces passes the cleaning unchanged |
| `StorageNames.ValidName` | ktg_storage/models.py:56-58 | `get_valid_name`: on success a name of `[-\w.]` characters, never "", "." or "..", and no longer than the input; otherwise SuspiciousFileOperation |
| `StorageNames.ValidNameFixedPoints` | ktg_storage/models.py:56-58 | `get_valid_name` returns a name unchanged exactly when it is usable and made of `[-\w.]` characters only |
| `StorageNames.ValidNameIdempotent` | ktg_storage/models.py:56-58 | cleaning a cleaned name gives it back |
| `StorageNames.UnusableStaysUnusable` | ktg_storage/models.py:56-58 | "", "." and ".." are refused by `get_valid_name` too |
| `StorageNames.ValidateFileName` | ktg_storage/models.py:56-58 | `validate_file_name` fails only with SuspiciousFileOperation; for an upload path it passes exactly when the `file_name` is usable (see `StorageNames.PlainUploadPath`) |
| `StorageNames.PlainUploadPath` | ktg_storage/utils.py:17-18 | the upload path of a name without `/` has its one separator after `files`, its components are `files` and the name, and `validate_file_name` passes it exactly when the name is not "", "." or ".." |
| `StorageNames.GenerateFilename` | ktg_storage/models.py:56-58 | the storage's `generate_filename` fails only with SuspiciousFileOperation, and on success its last component is one `get_valid_name` leaves alone |
| `StorageNames.SavedName` | ktg_storage/models.py:56-58 | the name `FieldFile.save` hands the storage for `files/<file_name>`: every failure is a SuspiciousFileOperation and the last component is always a fixed point of `get_valid_name` |
| `StorageNames.SavedNameOfPlainName` | ktg_storage/models.py:56-58 | for a `file_name` with no `/` or `\`, saving succeeds exactly when `get_valid_name` does, under `files/` and the cleaned name |
| `StorageNames.SavedNameNamesFile` | ktg_storage/models.py:56-58 | the cleaned `file_name` of a plain name can be read back from its saved name, and the `file_name` itself when the cleaning leaves it alone |
| `StorageNames.GeneratedNameIsSaved` | ktg_storage/utils.py:11-14 | a name generated from an original without `\` is always saved, under `files/` and its cleaned form, which still begins with the token |
| `StorageNames.SpaceInExtensionBecomesUnderscore` | ktg_storage/utils.py:11-14 | an upload named `<stem>.<a> <b>` gets the `file_name` `<token>.<a> <b>` but is stored as `files/<token>.<a>_<b>` |
| `Records.Storage.IsValid` | ktg_storage/models.py:71-75 | `is_valid`: a record is valid exactly when `upload_finished_at` is set (a `datetime` is always true in Python); `Services.Start` leaves it false, `Services.Finish`, `Services.StandardCreate` and `Services.StandardUpdate` make it true |
| `Records.FullClean` | ktg_storage/models.py:60-63 | passes iff the three text fields are not blank, the two `CharField`s fit 255 characters, a new row's key is not held by a live row and no other live row has the `file_name` (the uniqueness checks go through the default manager, which hides deleted rows); otherwise a ValidationError |
| `Records.Stamp` | ktg_storage/models.py:53-54 | a save sets `updated_at` to now, and `created_at` to now only on insertion; every other field is unchanged |
| `Records.Persist` | ktg_storage/models.py:62 | a plain save succeeds iff neither the primary key (on insertion) nor the unique `file_name` clashes; otherwise IntegrityError |
| `Records.CleanAndSave` | ktg_storage/models.py:60-63 | a clean followed by a save succeeds exactly when the fields are valid and neither the key (on insertion) nor the `file_name` clashes with any row, deleted or not; it fails with ValidationError or IntegrityError, and on success writes as a plain save would |
| `Records.CleanMissesDeletedRows` | ktg_storage/models.py:10-17 | a `file_name` held only by a deleted row passes the clean but is then refused by the database with IntegrityError |
| `Records.WriteKeepsConsistent` | ktg_storage/models.py:62 | writing a record that passes the field checks and clashes with no other row keeps rows under their own keys, names unique and fields valid |
| `Records.Active` | ktg_storage/models.py:11-17 | the base queryset is exactly the rows not soft-deleted |
| `Records.UserFiles` | ktg_storage/models.py:19-23 | exactly the live rows owned by the user whose upload has finished |
| `Records.TodayIsCalendarDay` | ktg_storage/models.py:25-34 | the inclusive window from 00:00:00.000000 to 23:59:59.999999 contains exactly the instants of now's UTC date |
| `Records.ExpireToday` | ktg_storage/models.py:25-34 | exactly the live rows whose `expire_at` falls on today's date; owner and completion are not consulted, and a null expiry is excluded |
| `Records.RemindToday` | ktg_storage/models.py:36-47 | exactly the live rows whose `reminder` falls on today's date |
| `Records.DayWindowBoundaries` | ktg_storage/models.py:25-34 | midnight and 23:59:59.999999 are inside the window, one microsecond either side is outside, and the window ends where the next day's begins |
| `Records.FileUrl` | ktg_storage/models.py:77-82 | the attachment's URL in `s3` mode, `APP_DOMAIN` followed by it otherwise; a ValueError when the attachment is null or has an empty name |
| `Records.InsertByAge` | ktg_storage/models.py:17 | inserting a row into a list adds exactly that row and keeps every other |
| `Records.InsertByAgeKeepsOrder` | ktg_storage/models.py:17 | inserting into a newest-first list keeps it newest first |
| `Records.InsertByAgeKeepsRowsApart` | ktg_storage/models.py:17 | inserting a row not yet listed into a list without repeats gives a list without repeats |
| `Records.ListNewestFirst` | ktg_storage/models.py:17 | `order_by("-created_at")`: every row of the set, nothing else, newest first, and no row twice when distinct keys hold distinct rows |
| `Services.ValidateFileSize` | ktg_storage/services.py:23-31 | passes iff the size is at most FILE_MAX_SIZE (equality accepted); otherwise ValidationError "file too big" |
| `Services.SizeLimitsAgree` | ktg_storage/services.py:27-31 | the size check and the presigned POST policy share the upper bound, and only the policy refuses an empty file |
| `Services.InferFileNameAndType` | ktg_storage/services.py:49-63 | explicit non-empty arguments win; otherwise the upload's name, and the type guessed from the resolved name or "" |
| `Services.SaveUpload` | ktg_storage/services.py:88-89 | `full_clean()` then `save()` of a record holding a new upload: it succeeds iff the record can be stored and Django can name the file; the clean's error comes first, then the file name's, then the table's; on success just that row is written, with the bytes under the name Django derives from `files/<file_name>`; consistency is kept |
| `Services.SaveRow` | ktg_storage/models.py:60-63 | the row write of `save()` succeeds iff neither the key (on insertion) nor the `file_name` clashes, stamps the record, changes only its row and keeps a consistent table consistent |
| `Services.StandardCreate` | ktg_storage/services.py:65-91 | corrected `create`: too-big files are refused first; otherwise it succeeds iff the inferred record passes the clean and Django can name its file, and then adds just the new row, complete at once, with the inferred name and type, a name generated from the inferred name, the uploaded bytes stored under the name Django derives from that `file_name`, and the user as owner; a consistent table stays consistent |
| `Services.StandardCreateAsWritten` | ktg_storage/services.py:78-86 | as written, the size check still comes first |
| `Services.StandardCreateAsWrittenNeverCreates` | ktg_storage/services.py:78-86 | as written, `create` always fails, with a TypeError for every file within the limit |
| `Services.StandardCreateStoresReport` | ktg_storage/services.py:78-91 | on `report.pdf` with type `application/pdf` in an empty table the corrected `create` stores the file where the original raises |
| `Services.ReportIsSaved` | ktg_storage/services.py:82 | the name generated for `report.pdf` is one Django stores the file under |
| `Services.StandardCreateRejectsUnknownType` | ktg_storage/services.py:55-61 | with no explicit type and no guess, the type is "" and `full_clean()` refuses the record |
| `Services.StandardUpdate` | ktg_storage/services.py:93-113 | too-big files are refused first; otherwise it succeeds iff the updated record passes the clean and Django can name its file, so a file of exactly FILE_MAX_SIZE is accepted; on success the record keeps its key, creation time, deletion flag and dates, gets the new attachment, the inferred name and type, a regenerated `file_name`, the uploaded bytes stored under the name Django derives from it, the user and completion now, and nothing else in the table changes; every error is a ValidationError, SuspiciousFileOperation or IntegrityError |
| `Services.StandardUpdateStorable` | ktg_storage/services.py:97-111 | an update within the size limit whose record can be stored always succeeds when the inferred name has no `\`: the file name never stands in its way |
| `Services.Start` | ktg_storage/services.py:135-179 | on success just the new row is added, pending, with the given name and type, a generated `file_name`, the given owner and dates, and the attachment at `files/<file_name>`; a presigned POST iff `s3` mode or not DEBUG, the local URL of the id otherwise; it succeeds iff the record can be cleaned and saved and (when remote) signing succeeds, and a signing error leaves no record |
| `Services.StartLocalUrlNamesRecord` | ktg_storage/services.py:171-174 | the local URL `start` returns resolves to the id of the record it stored |
| `Services.StartWithFreshToken` | ktg_storage/services.py:138-149 | with an unused key and a token no stored name begins with, a valid start fails only when signing does |
| `Services.Finish` | ktg_storage/services.py:181-188 | on success the record changes only in completion (now) and `updated_at`; it is then complete and the rest of the table is untouched |
| `Services.FinishStoredRecord` | ktg_storage/services.py:181-188 | in a consistent table, finishing a stored record always succeeds |
| `Services.FinishTwice` | ktg_storage/services.py:184-186 | finishing twice leaves the record complete, and the table as a single finish at the later time would |
| `Services.UploadLocal` | ktg_storage/services.py:190-199 | too-big files are refused and nothing changes; an upload of exactly FILE_MAX_SIZE is accepted; it succeeds iff the size fits, the record's fields are valid, its `file_name` is free and Django can name the file; on success only the attachment (the bytes, under the name Django derives from `files/<file_name>`) and `updated_at` change, and completion is left as it was |
| `Services.UploadLocalPathNamesRecord` | ktg_storage/services.py:195-197 | the attachment of a local upload ends in a component `get_valid_name` leaves alone; for a `file_name` without `/` or `\` it is `files/` and the cleaned name, so it reads back as the `file_name` itself when the cleaning leaves that alone |
| `Services.UploadLocalGivesUrl` | ktg_storage/models.py:77-82 | after a local upload the record's `url` exists: the storage URL of the name the file was saved under, behind `APP_DOMAIN` unless the app stores on S3 |
| `Text.Strip` | ktg_storage/serializers.py:61-62 | trimming gives a piece of the input that neither begins nor ends with whitespace, with only whitespace cut before and after it, and is empty iff the input is all whitespace |
| `Text.StripIdempotent` | ktg_storage/serializers.py:61-62 | trimming twice is trimming once |
| `Api.CharField` | ktg_storage/serializers.py:61-62 | accepts exactly the input that is not blank and whose trimmed text has no NUL character, giving that trimmed, non-empty text; blank input is refused with "This field may not be blank.", a NUL with "Null characters are not allowed." |
| `Api.Owner` | ktg_storage/serializers.py:68-70 | an owner exactly for an authenticated requester, and then that user |
| `Api.StartUpload` | ktg_storage/serializers.py:66-74 | a name or type the `CharField` refuses (blank, or holding a NUL) is refused with that field's error, the name checked first; otherwise it is `start` on the trimmed values, with the requester as owner only when authenticated, giving a pending record |
| `Api.Lookup` | ktg_storage/serializers.py:91 | found exactly when the row exists and is not soft-deleted; NotFound otherwise |
| `Api.FinishUpload` | ktg_storage/serializers.py:87-95 | NotFound for an unknown or deleted id, otherwise `finish` of that row; no owner check, so in a consistent table it succeeds for every live id |
| `Api.UploadLocalView` | ktg_storage/views.py:48-56 | NotFound for an unknown or deleted id, before the request's file is read; a missing file is a KeyError; otherwise `upload_local`, which in a consistent table succeeds iff the size fits and Django can name the file |
| `Api.UserLookup` | ktg_storage/views.py:65-66 | found exactly within the caller's user files |
| `Api.TextField` | ktg_storage/serializers.py:19-32 | a supplied text field is accepted iff it is not blank and its trimmed value has no NUL character, and then as that trimmed value; an absent one is accepted only in a partial update |
| `Api.BoundedField` | ktg_storage/models.py:62-63 | a `CharField(max_length=255)` of the serializer also refuses a trimmed value over 255 characters |
| `Api.UpdateFile` | ktg_storage/serializers.py:41-48 | NotFound outside the caller's files; on success `file_name`, `file_type`, `id`, `upload_finished_at`, `uploaded_by`, `is_deleted`, the attachment and `created_at` are unchanged, while `original_file_name`, `expire_at` and `reminder` take the supplied values; in a consistent table it succeeds iff the supplied fields validate, and consistency is kept |
| `Api.DeleteFile` | ktg_storage/views.py:71-78 | NotFound outside the caller's files; otherwise the row stays, with `is_deleted` set and `updated_at` now, and nothing else changes |
| `Api.ExpiredUserFiles` | ktg_storage/views.py:33-37 | exactly the caller's files whose `expire_at` is set and not after now |
| `Api.ListFiles` | ktg_storage/views.py:25-27 | every one of the caller's files, nothing else, newest first, and none twice in a well-keyed table |
| `Api.ListExpiredFiles` | ktg_storage/views.py:33-37 | every expired file of the caller, newest first, each owned, live, finished and expired, and none twice in a well-keyed table |
| `Api.Serialize` | ktg_storage/serializers.py:19-27 | the output carries every field of the record but `is_deleted`, the attachment by its name |
| `Api.SerializeShowsVisible` | ktg_storage/serializers.py:25-27 | two records serialize alike iff they differ only in `is_deleted` and unwritten bytes: the flag never reaches the output |
| `Api.DeleteHides` | ktg_storage/views.py:71-78 | after a delete the row remains, flagged, but is in no user's files, expired list or day query, and update, delete, finish and local upload of it are NotFound |
| `Api.StartThenFinish` | ktg_storage/models.py:19-23 | a started file is live but not among the owner's files; once finished it is |

## Left out

- `apis.py`: a stale copy of the views that calls `start(**data)`, a signature `services.py` does not have.
- `bytes_to_mib`: floating point, and used only in a comment.
- The boto3 transport, the construction of `S3Service` and the module singleton. The bucket is a map with an error oracle, and presigning is a function parameter.
- `S3Service.get_file` with a download path, and `upload_file`: both write to or read from the local filesystem. `get_file` without a path behaves as `get_file_content`.
- `get_file_metadata`'s `LastModified` and `ETag`: S3 produces them, and no code here decides anything about them.
- `ObjectStore.GeneratePresignedPost` has no contract of its own. Its request is `PostRequestFor`, and what that request admits is `ObjectStore.PostPolicyAdmits`.
- The `CreatePresignedUrl` view (`generate-presigned-url/`): it calls a function `client.py` does not define. The S3 operation it means is `ObjectStore.CreatePresignedUrl`.
- `FileSerializer.get_file` reads `obj.file`, which the model does not have. As written, every response that serializes a record therefore raises AttributeError after its transaction has committed. `Api.FileOut` leaves the `file` entry out.
- `FileSerializer.get_uploaded_by` returns the owner as a user queryset; `Api.FileOut` carries the owner's id.
- The attachment in the serializer output is the file's URL; `Api.FileOut` carries its storage name.
- The storage backend's `get_available_name`: it renames on a taken name, and on a name longer than the FileField's 100 characters. The model stores the attachment under the name `get_valid_name` and `generate_filename` give. django-storages' S3 backend is taken to keep the naming of Django's base `Storage`.
- `StorageNames.IsWordChar`: Python's `\w` beyond ASCII is Unicode's letters, digits and connector punctuation. The model counts every non-whitespace character beyond ASCII as one, so a non-ASCII symbol that the cleaning drops is kept in the model.
- The upload's own name and the file object's other attributes: Django ignores them once `upload_to` gives the path, and so does the model.
- Changing the attachment through the update view (a multipart upload): `Api.Patch` carries only JSON-like fields.
- The serializer reports every failing field together; `Api.UpdateFile` and `Api.StartUpload` report only the first.
- `ProhibitSurrogateCharactersValidator` of a `CharField`: a `char` here is a Unicode scalar value, so no surrogate can occur.
- Parsing of a primary key given as text: the views receive an `Id`. Non-canonical spellings that `uuid.UUID` accepts, and the error for malformed ones, are not modelled.
- Authentication (`auth_mixin.py`, `ALLOW_AUTHENTICATION`): a configuration toggle. The list, update and delete views take an authenticated user.
- Time zones: every instant is UTC, and `timezone.now()` is read once per request.
- Concurrency between requests: each request sees the table the previous one left.

## Findings

| source | as written | input that shows it | evidently intended | confidence | as-written member | corrected member |
|---|---|---|---|---|---|---|
| ktg_storage/services.py:78-86 | `Storage(file=self.file_obj, object_type=object_type, ...)` passes two keyword arguments the model has no fields for, so the constructor raises TypeError on every call that passes the size check | any upload within FILE_MAX_SIZE, e.g. `report.pdf` with type `application/pdf` into an empty table | store the upload in `attachment` and do not pass `object_type` | high, by reading Django's model constructor; not executed | `Services.StandardCreateAsWrittenNeverCreates` | `Services.StandardCreate` |

=== FILE: api.dfy ===
/** ktg_storage/views.py and ktg_storage/serializers.py: what each endpoint reads,
    validates and writes. A request is a function from the table to the response
    data and the table after it; lookups follow the queryset each view uses. */
module Api {
  import opened Common
  import opened Text
  import opened Uuids
  import opened Settings
  import opened Records
  import opened Services
  import StorageNames
  import ObjectStore

  datatype Requester = Anonymous | Authenticated(user: UserId)

  const BlankMessage: string := "This field may not be blank."
  const RequiredMessage: string := "This field is required."
  const TooLongMessage: string := "Ensure this field has no more than 255 characters."
  const NameTakenMessage: string := "storage with this file name already exists."
  const NullCharacterMessage: string := "Null characters are not allowed."

  /** A serializer `CharField`: blank input (after trimming) is refused; otherwise
      the trimmed text is the value, unless the validator every `CharField` carries
      finds a NUL character in it. */
  function CharField(data: string): (r: Result<string>)
    ensures r.Ok? <==> !Blank(data) && '\0' !in Strip(data)
    ensures r.Ok? ==> r.value == Strip(data) && r.value != ""
    ensures Blank(data) ==> r == Err(ValidationError(BlankMessage))
    ensures !Blank(data) && '\0' in Strip(data) ==> r == Err(ValidationError(NullCharacterMessage))
  {
    var t := Strip(data);
    if t == "" then Err(ValidationError(BlankMessage))
    else if '\0' in t then Err(ValidationError(NullCharacterMessage))
    else Ok(t)
  }

  /** The body of a start request. */
  datatype StartRequest = StartRequest(fileName: string, fileType: string, expireAt: Option<Time>, reminder: Option<Time>)

  /** `validated_data["user"]`: set only for an authenticated requester. */
  function Owner(requester: Requester): (u: Option<UserId>)
    ensures u.Some? <==> requester.Authenticated?
    ensures u.Some? ==> u.value == requester.user
  {
    match requester
    case Anonymous => None
    case Authenticated(user) => Some(user)
  }

  /** `POST upload/direct/start/`: the start serializer validates the two names and
      hands over to `start`, with the requester as owner when authenticated. */
  function StartUpload(store: Store, cfg: Config, requester: Requester, req: StartRequest, token: Token, newId: Id, now: Time,
                       sign: ObjectStore.PostRequest -> Result<ObjectStore.PresignedPost>): (r: Result<Started>)
    ensures Blank(req.fileName) ==> r == Err(ValidationError(BlankMessage))
    ensures !Blank(req.fileName) && '\0' in Strip(req.fileName) ==> r == Err(ValidationError(NullCharacterMessage))
    ensures CharField(req.fileName).Ok? && CharField(req.fileType).Err? ==> r == Err(CharField(req.fileType).error)
    ensures CharField(req.fileName).Ok? && CharField(req.fileType).Ok? ==>
              r == Start(store, cfg, StartData(Strip(req.fileName), Strip(req.fileType), Owner(requester), req.expireAt, req.reminder),
                         token, newId, now, sign)
    ensures r.Ok? ==> r.value.file.uploadedBy == Owner(requester)
    ensures r.Ok? ==> r.value.file.originalFileName == Strip(req.fileName) && r.value.file.fileType == Strip(req.fileType)
    ensures r.Ok? ==> !r.value.file.IsValid()
  {
    var fileName :- CharField(req.fileName);
    var fileType :- CharField(req.fileType);
    Start(store, cfg, StartData(fileName, fileType, Owner(requester), req.expireAt, req.reminder), token, newId, now, sign)
  }

  /** `get_object_or_404(Storage, id=...)`: the default manager hides soft-deleted
      rows, and nothing else is checked. */
  function Lookup(store: Store, id: Id): (r: Result<Storage>)
    ensures r.Ok? <==> id in Active(store)
    ensures r.Ok? ==> r.value == store[id]
    ensures r.Err? ==> r.error == NotFound
  {
    if id in store && !store[id].isDeleted then Ok(store[id]) else Err(NotFound)
  }

  /** `POST upload/direct/finish/`: look the record up and finish it. The requester
      is not an input: any caller can finish any live record. */
  function FinishUpload(store: Store, fileId: Id, now: Time): (r: Result<Saved>)
    ensures fileId !in Active(store) ==> r == Err(NotFound)
    ensures fileId in Active(store) ==> r == Finish(store, store[fileId], now)
    ensures Consistent(store) ==> (r.Ok? <==> fileId in Active(store))
    ensures r.Ok? ==> r.value.file.IsValid() && r.value.file.id == fileId
  {
    var file :- Lookup(store, fileId);
    if Consistent(store) then FinishStoredRecord(store, fileId, now); Finish(store, file, now)
    else Finish(store, file, now)
  }

  /** `POST upload/direct/local/<file_id>/`: the lookup comes first, then the
      request must carry a file under "file". */
  function UploadLocalView(store: Store, cfg: Config, fileId: Id, file: Option<Upload>, now: Time): (r: Result<Saved>)
    ensures fileId !in Active(store) ==> r == Err(NotFound)
    ensures fileId in Active(store) && file.None? ==> r == Err(KeyError("file"))
    ensures fileId in Active(store) && file.Some? ==> r == UploadLocal(store, cfg, store[fileId], file.value, now)
    ensures Consistent(store) && fileId in Active(store) && file.Some? ==>
              (r.Ok? <==> file.value.Size() <= cfg.maxSize && StorageNames.SavedName(store[fileId].fileName).Ok?)
  {
    var rec :- Lookup(store, fileId);
    if file.None? then Err(KeyError("file"))
    else
      assert Consistent(store) ==> rec.id == fileId && FieldsValid(rec);
      UploadLocal(store, cfg, rec, file.value, now)
  }

  /** `get_object()` of a view whose queryset is `get_user_files(request.user)`. */
  function UserLookup(store: Store, user: UserId, id: Id): (r: Result<Storage>)
    ensures r.Ok? <==> id in UserFiles(store, user)
    ensures r.Ok? ==> r.value == store[id]
    ensures r.Err? ==> r.error == NotFound
  {
    if id in UserFiles(store, user) then Ok(store[id]) else Err(NotFound)
  }

  /** The fields a client sends to the update view; `None` is a field left out.
      The read-only ones and `is_deleted` are listed so that ignoring them can be
      stated. */
  datatype Patch = Patch(
    originalFileName: Option<string>,
    fileName: Option<string>,
    fileType: Option<string>,
    expireAt: Option<Option<Time>>,
    reminder: Option<Option<Time>>,
    id: Option<string>,
    uploadFinishedAt: Option<Option<Time>>,
    uploadedBy: Option<Option<UserId>>,
    isDeleted: Option<bool>)

  /** A supplied text field of the model serializer. */
  function TextField(supplied: Option<string>, partial: bool): (r: Result<Option<string>>)
    ensures supplied.None? ==> (r.Ok? <==> partial) && (r.Ok? ==> r.value.None?)
    ensures supplied.Some? ==> (r.Ok? <==> !Blank(supplied.value) && '\0' !in Strip(supplied.value)) && (r.Ok? ==> r.value == Some(Strip(supplied.value)))
    ensures r.Err? ==> r.error.ValidationError?
  {
    match supplied
    case None => if partial then Ok(None) else Err(ValidationError(RequiredMessage))
    case Some(data) =>
      var v :- CharField(data);
      Ok(Some(v))
  }

  /** A supplied `CharField(max_length=255)` of the model serializer. */
  function BoundedField(supplied: Option<string>, partial: bool): (r: Result<Option<string>>)
    ensures r.Ok? <==> TextField(supplied, partial).Ok? && (supplied.Some? ==> |Strip(supplied.value)| <= MaxCharFieldLength)
    ensures r.Ok? ==> r == TextField(supplied, partial)
    ensures r.Err? ==> r.error.ValidationError?
  {
    var v :- TextField(supplied, partial);
    if v.Some? && |v.value| > MaxCharFieldLength then Err(ValidationError(TooLongMessage)) else Ok(v)
  }

  /** The `UniqueValidator` of `file_name`: it queries the default manager, so only
      live rows other than the instance count. */
  predicate NameTakenByLiveRow(store: Store, instance: Storage, name: string) {
    exists id | id in Active(store) :: id != instance.id && store[id].fileName == name
  }

  /** Every supplied field passes the serializer, `file_name` and `file_type`
      included, though the update then drops them. */
  predicate PatchValid(store: Store, instance: Storage, patch: Patch, partial: bool) {
    && TextField(patch.originalFileName, partial).Ok?
    && BoundedField(patch.fileName, partial).Ok?
    && (patch.fileName.Some? ==> !NameTakenByLiveRow(store, instance, Strip(patch.fileName.value)))
    && BoundedField(patch.fileType, partial).Ok?
  }

  /** `PATCH` (partial) and `PUT` on `files/<pk>/`: the caller's own finished file
      only. The serializer validates what is sent; `update` then drops `file_name`
      and `file_type` and writes the rest with a plain `save()`. */
  function UpdateFile(store: Store, user: UserId, id: Id, patch: Patch, partial: bool, now: Time): (r: Result<Saved>)
    ensures id !in UserFiles(store, user) ==> r == Err(NotFound)
    ensures id in UserFiles(store, user) && !PatchValid(store, store[id], patch, partial) ==> r.Err? && r.error.ValidationError?
    ensures r.Ok? ==>
              var f := r.value.file;
              var before := store[id];
              && id in UserFiles(store, user)
              && f.fileName == before.fileName && f.fileType == before.fileType
              && f.id == before.id && f.uploadFinishedAt == before.uploadFinishedAt && f.uploadedBy == before.uploadedBy
              && f.isDeleted == before.isDeleted && f.attachment == before.attachment && f.createdAt == before.createdAt
              && f.originalFileName == (if patch.originalFileName.Some? then Strip(patch.originalFileName.value) else before.originalFileName)
              && f.expireAt == patch.expireAt.GetOr(before.expireAt)
              && f.reminder == patch.reminder.GetOr(before.reminder)
              && f.updatedAt == now
              && r.value.store == store[id := f]
    ensures Consistent(store) && id in UserFiles(store, user) ==> (r.Ok? <==> PatchValid(store, store[id], patch, partial))
    ensures Consistent(store) && r.Ok? ==> Consistent(r.value.store)
  {
    var file :- UserLookup(store, user, id);
    var name :- TextField(patch.originalFileName, partial);
    var _ :- BoundedField(patch.fileName, partial);
    :- Need(!(patch.fileName.Some? && NameTakenByLiveRow(store, file, Strip(patch.fileName.value))), ValidationError(NameTakenMessage));
    var _ :- BoundedField(patch.fileType, partial);
    var rec := file.(
      originalFileName := name.GetOr(file.originalFileName),
      expireAt := patch.expireAt.GetOr(file.expireAt),
      reminder := patch.reminder.GetOr(file.reminder));
    assert Consistent(store) ==> rec.id == id && FieldsValid(rec) && NameFree(store, rec);
    var s :- Persist(store, rec, false, now);
    if Consistent(store) then WriteKeepsConsistent(store, rec, false, now); Ok(Saved(s, s[id]))
    else Ok(Saved(s, s[id]))
  }

  /** `DELETE files/<pk>/`: a soft delete. The row stays, flagged. */
  function DeleteFile(store: Store, user: UserId, id: Id, now: Time): (r: Result<Store>)
    ensures id !in UserFiles(store, user) ==> r == Err(NotFound)
    ensures r.Ok? ==> r.value.Keys == store.Keys
    ensures r.Ok? ==> r.value[id] == store[id].(isDeleted := true, updatedAt := now)
    ensures r.Ok? ==> forall k | k in store && k != id :: r.value[k] == store[k]
    ensures Consistent(store) ==> (r.Ok? <==> id in UserFiles(store, user))
    ensures Consistent(store) && r.Ok? ==> Consistent(r.value)
  {
    var file :- UserLookup(store, user, id);
    var rec := file.(isDeleted := true);
    assert Consistent(store) ==> rec.id == id && FieldsValid(rec) && NameFree(store, rec);
    var s :- Persist(store, rec, false, now);
    if Consistent(store) then WriteKeepsConsistent(store, rec, false, now); Ok(s)
    else Ok(s)
  }

  /** `ExpiredFileListView.get_queryset`: the caller's files whose expiry has come;
      a file without an expiry never expires. */
  function ExpiredUserFiles(store: Store, user: UserId, now: Time): (m: Store)
    ensures forall id :: id in m <==>
              id in UserFiles(store, user) && store[id].expireAt.Some? && store[id].expireAt.value <= now
    ensures forall id | id in m :: m[id] == store[id]
  {
    Filter(UserFiles(store, user), (r: Storage) => r.expireAt.Some? && r.expireAt.value <= now)
  }

  /** `GET all/`: the caller's finished, live files, newest first. */
  method ListFiles(store: Store, user: UserId) returns (files: seq<Storage>)
    ensures NewestFirst(files)
    ensures |files| == |UserFiles(store, user)|
    ensures forall i | 0 <= i < |files| :: files[i] in UserFiles(store, user).Values
    ensures forall id | id in UserFiles(store, user) :: store[id] in files
    ensures WellKeyed(store) ==> NoRepeats(files)
  {
    files := ListNewestFirst(UserFiles(store, user));
  }

  /** `GET expired-files/`: the caller's expired files, newest first. */
  method ListExpiredFiles(store: Store, user: UserId, now: Time) returns (files: seq<Storage>)
    ensures NewestFirst(files)
    ensures |files| == |ExpiredUserFiles(store, user, now)|
    ensures forall i | 0 <= i < |files| ::
              files[i].uploadedBy == Some(user) && !files[i].isDeleted && files[i].IsValid()
              && files[i].expireAt.Some? && files[i].expireAt.value <= now
    ensures forall id | id in ExpiredUserFiles(store, user, now) :: store[id] in files
    ensures WellKeyed(store) ==> NoRepeats(files)
  {
    var m := ExpiredUserFiles(store, user, now);
    files := ListNewestFirst(m);
    forall i | 0 <= i < |files|
      ensures files[i].uploadedBy == Some(user) && !files[i].isDeleted && files[i].IsValid()
      ensures files[i].expireAt.Some? && files[i].expireAt.value <= now
    {
      var id :| id in m && m[id] == files[i];
    }
  }

  /** The representation `FileSerializer` gives a record: every field except
      `is_deleted`; the attachment appears by name. */
  datatype FileOut = FileOut(
    id: Id,
    createdAt: Time,
    updatedAt: Time,
    attachment: Option<string>,
    originalFileName: string,
    fileName: string,
    fileType: string,
    uploadedBy: Option<UserId>,
    uploadFinishedAt: Option<Time>,
    expireAt: Option<Time>,
    reminder: Option<Time>)

  function Serialize(r: Storage): (o: FileOut)
    ensures o.id == r.id && o.createdAt == r.createdAt && o.updatedAt == r.updatedAt
    ensures o.attachment.Some? <==> r.attachment.Some?
    ensures o.attachment.Some? ==> o.attachment.value == r.attachment.value.name
    ensures o.originalFileName == r.originalFileName && o.fileName == r.fileName && o.fileType == r.fileType
    ensures o.uploadedBy == r.uploadedBy && o.uploadFinishedAt == r.uploadFinishedAt
    ensures o.expireAt == r.expireAt && o.reminder == r.reminder
  {
    FileOut(
      r.id, r.createdAt, r.updatedAt,
      if r.attachment.Some? then Some(r.attachment.value.name) else None,
      r.originalFileName, r.fileName, r.fileType, r.uploadedBy, r.uploadFinishedAt, r.expireAt, r.reminder)
  }

  /** What a client may learn of a record: everything but the deletion flag and
      bytes not yet written. */
  function Visible(r: Storage): Storage {
    r.(isDeleted := false,
       attachment := if r.attachment.Some? then Some(Attachment(r.attachment.value.name, None)) else None)
  }

  /** Two records serialize alike exactly when they differ at most in what is not
      visible: `is_deleted` never reaches the output. */
  lemma SerializeShowsVisible(a: Storage, b: Storage)
    ensures Serialize(a) == Serialize(b) <==> Visible(a) == Visible(b)
  {
    if Serialize(a) == Serialize(b) {
      assert Visible(a).attachment == Visible(b).attachment;
    }
    if Visible(a) == Visible(b) {
      assert Visible(a).attachment == Visible(b).attachment;
    }
  }

  /** A deleted file is gone from every view and every query of the manager, and
      every later request for it is not-found, while the row itself remains. */
  lemma DeleteHides(store: Store, user: UserId, id: Id, now: Time,
                    other: UserId, patch: Patch, partial: bool, cfg: Config, upload: Option<Upload>, t: Time)
    requires Consistent(store) && id in UserFiles(store, user)
    ensures DeleteFile(store, user, id, now).Ok?
    ensures var s := DeleteFile(store, user, id, now).value;
            && id in s && s[id].isDeleted
            && id !in Active(s) && id !in UserFiles(s, other) && id !in ExpiredUserFiles(s, other, t)
            && id !in ExpireToday(s, t) && id !in RemindToday(s, t)
            && UpdateFile(s, other, id, patch, partial, t) == Err(NotFound)
            && DeleteFile(s, other, id, t) == Err(NotFound)
            && FinishUpload(s, id, t) == Err(NotFound)
            && UploadLocalView(s, cfg, id, upload, t) == Err(NotFound)
  {
  }

  /** The direct-upload lifecycle: a started file is live but not yet among the
      owner's files; once finished it is. */
  lemma StartThenFinish(store: Store, cfg: Config, user: UserId, req: StartRequest, token: Token, newId: Id, t1: Time, t2: Time,
                        sign: ObjectStore.PostRequest -> Result<ObjectStore.PresignedPost>)
    requires Consistent(store)
    ensures var started := StartUpload(store, cfg, Authenticated(user), req, token, newId, t1, sign);
            started.Ok? ==>
            var s1 := started.value.store;
            && newId in Active(s1) && newId !in UserFiles(s1, user)
            && FinishUpload(s1, newId, t2).Ok?
            && newId in UserFiles(FinishUpload(s1, newId, t2).value.store, user)
  {
  }
}

=== FILE: common.dfy ===
/** Values shared by every part of the model: bytes, optional values, and the
    exceptions the storage app raises, as failure-compatible result types. */
module Common {

  newtype Byte = b: int | 0 <= b < 256

  datatype Option<+T> = None | Some(value: T) {

    /** The value, or `default` when there is none (Python's `x or default` on an optional). */
    function GetOr(default: T): T {
      match this
      case Some(v) => v
      case None => default
    }
  }

  /** The exceptions the modelled code raises or lets propagate. */
  datatype Error =
    | ValidationError(message: string)       // django.core.exceptions.ValidationError, or a 400 from a serializer
    | IntegrityError(message: string)        // a database constraint rejected the write
    | NotFound                               // Http404 from get_object_or_404 / get_object
    | ImproperlyConfigured(message: string)  // a required Django setting is absent
    | ClientError(code: string)              // botocore ClientError, with its error code
    | TypeError(message: string)             // a model constructed with keyword arguments it does not have
    | ValueError(message: string)            // a file field read while it has no file
    | KeyError(key: string)                  // a missing entry of request.FILES
    | SuspiciousFileOperation(message: string)  // a file name Django refuses to hand to the storage

  datatype Result<+T> = Ok(value: T) | Err(error: Error) {

    predicate IsFailure() {
      Err?
    }

    function PropagateFailure<U>(): Result<U>
      requires Err?
    {
      Err(error)
    }

    function Extract(): T
      requires Ok?
    {
      value
    }

    /** Success as an optional value: the result of a call whose failures are logged and swallowed. */
    function ToOption(): Option<T> {
      match this
      case Ok(v) => Some(v)
      case Err(_) => None
    }
  }

  /** The outcome of a check that either passes or raises. */
  datatype Outcome = Pass | Fail(error: Error) {

    predicate IsFailure() {
      Fail?
    }

    function PropagateFailure<U>(): Result<U>
      requires Fail?
    {
      Err(error)
    }
  }

  function Need(condition: bool, error: Error): (o: Outcome)
    ensures o.Pass? <==> condition
    ensures o.Fail? ==> o.error == error
  {
    if condition then Pass else Fail(error)
  }

  /** `x` occurs in `s` as a contiguous piece. */
  predicate Occurs(x: string, s: string) {
    exists k | 0 <= k <= |s| - |x| :: OccursAt(x, s, k)
  }

  predicate OccursAt(x: string, s: string, k: int) {
    0 <= k <= |s| - |x| && s[k..k + |x|] == x
  }

  lemma OccursAfter(x: string, a: string, b: string)
    requires Occurs(x, b)
    ensures Occurs(x, a + b)
  {
    var k :| 0 <= k <= |b| - |x| && OccursAt(x, b, k);
    assert b[k..k + |x|] == x;
    assert (a + b)[|a| + k..|a| + k + |x|] == b[k..k + |x|];
    assert OccursAt(x, a + b, |a| + k);
  }
}

=== FILE: objectstore.dfy ===
/** ktg_storage/client.py, `S3Service`: the decisions the app makes around its S3
    calls. The bucket is a map from key to object; a second map is the error
    oracle, naming the keys whose calls fail with a client error and its code.
    Signing is an abstract function that may fail. */
module ObjectStore {
  import opened Common
  import opened Settings

  datatype StoredObject = StoredObject(body: seq<Byte>, contentType: string, acl: string)

  /** A bucket as the S3 API reports it. A call on a key in `faults` fails with that
      error code; otherwise a call on a key without an object fails with "404". */
  datatype Bucket = Bucket(name: string, objects: map<string, StoredObject>, faults: map<string, string>)

  const NotFoundCode: string := "404"

  /** `head_object`. */
  function HeadObject(b: Bucket, key: string): (r: Result<StoredObject>)
    ensures r.Ok? <==> key !in b.faults && key in b.objects
    ensures r.Ok? ==> r.value == b.objects[key]
    ensures r.Err? ==> r.error.ClientError?
  {
    if key in b.faults then Err(ClientError(b.faults[key]))
    else if key in b.objects then Ok(b.objects[key])
    else Err(ClientError(NotFoundCode))
  }

  /** `file_exists`: a 404 means "no", any other client error propagates. */
  function FileExists(b: Bucket, key: string): (r: Result<bool>)
    ensures r == Ok(true) <==> HeadObject(b, key).Ok?
    ensures r == Ok(false) <==> HeadObject(b, key) == Err(ClientError(NotFoundCode))
    ensures r.Err? ==> r == HeadObject(b, key).PropagateFailure()
  {
    match HeadObject(b, key)
    case Ok(_) => Ok(true)
    case Err(e) => if e == ClientError(NotFoundCode) then Ok(false) else Err(e)
  }

  /** Without an injected fault, `file_exists` answers whether the key holds an object. */
  lemma FileExistsWithoutFault(b: Bucket, key: string)
    requires key !in b.faults
    ensures FileExists(b, key) == Ok(key in b.objects)
  {
  }

  /** `get_file_size`: 0 for an absent key, else the stored length. */
  function GetFileSize(b: Bucket, key: string): (r: Result<nat>)
    ensures key !in b.faults ==> r == Ok(if key in b.objects then |b.objects[key].body| else 0)
    ensures key in b.faults ==> (r.Ok? <==> b.faults[key] == NotFoundCode) && (r.Ok? ==> r.value == 0)
  {
    var exists_ :- FileExists(b, key);
    // the second `head_object` sees the same bucket as the first, so it succeeds
    if !exists_ then Ok(0) else Ok(|b.objects[key].body|)
  }

  /** `get_file_url`: the unsigned virtual-hosted URL of a key; it never fails. */
  function GetFileUrl(bucketName: string, key: string): (url: Option<string>)
    ensures url.Some?
  {
    Some("https://" + bucketName + ".s3.amazonaws.com/" + key)
  }

  /** The key an unsigned object URL of this bucket names, if it is one. */
  function KeyOfFileUrl(bucketName: string, url: string): Option<string> {
    var p := "https://" + bucketName + ".s3.amazonaws.com/";
    if |url| >= |p| && url[..|p|] == p then Some(url[|p|..]) else None
  }

  /** The object URL names its key and nothing else. */
  lemma FileUrlRoundTrip(bucketName: string, key: string, url: string)
    ensures KeyOfFileUrl(bucketName, GetFileUrl(bucketName, key).value) == Some(key)
    ensures KeyOfFileUrl(bucketName, url) == Some(key) ==> GetFileUrl(bucketName, key) == Some(url)
  {
    var p := "https://" + bucketName + ".s3.amazonaws.com/";
    var u := GetFileUrl(bucketName, key).value;
    assert u == p + key;
    assert u[..|p|] == p && u[|p|..] == key;
    if KeyOfFileUrl(bucketName, url) == Some(key) {
      assert url == url[..|p|] + url[|p|..];
    }
  }

  /** `get_file_path`: the object URL when the key exists, none when it is absent. */
  function GetFilePath(b: Bucket, key: string): (r: Result<Option<string>>)
    ensures r.Ok? <==> FileExists(b, key).Ok?
    ensures r.Ok? ==> (r.value.Some? <==> FileExists(b, key) == Ok(true))
    ensures r.Ok? && r.value.Some? ==> r.value == GetFileUrl(b.name, key)
  {
    var exists_ :- FileExists(b, key);
    if exists_ then Ok(GetFileUrl(b.name, key)) else Ok(None)
  }

  /** The request `create_presigned_url` signs. */
  datatype GetUrlRequest = GetUrlRequest(bucketName: string, key: string, expiresIn: int)

  /** `create_presigned_url`: the configured expiry, or 0 when the link should not
      expire; a signing error becomes "no URL". */
  function CreatePresignedUrl(cfg: Config, key: string, expires: bool, sign: GetUrlRequest -> Result<string>): (url: Option<string>)
    ensures var req := GetUrlRequest(cfg.bucketName, key, if expires then cfg.presignedExpiry else 0);
            && (url.Some? <==> sign(req).Ok?)
            && (url.Some? ==> url.value == sign(req).value)
  {
    var expiresIn := if expires then cfg.presignedExpiry else 0;
    sign(GetUrlRequest(cfg.bucketName, key, expiresIn)).ToOption()
  }

  /** One entry of a presigned POST policy. */
  datatype Condition = FieldEquals(field: string, value: string) | ContentLengthRange(min: int, max: int)

  /** The request `generate_presigned_post` signs. */
  datatype PostRequest = PostRequest(
    bucketName: string,
    key: string,
    fields: map<string, string>,
    conditions: seq<Condition>,
    expiresIn: int)

  /** What the signer returns: where to post, and the form fields to send. */
  datatype PresignedPost = PresignedPost(url: string, fields: map<string, string>)

  function PostRequestFor(cfg: Config, filePath: string, fileType: string): PostRequest {
    PostRequest(
      cfg.bucketName,
      filePath,
      map["acl" := cfg.acl, "Content-Type" := fileType],
      [FieldEquals("acl", cfg.acl), FieldEquals("Content-Type", fileType), ContentLengthRange(1, cfg.maxSize)],
      cfg.presignedExpiry)
  }

  /** An upload through a presigned POST: the form fields it sends and its size. */
  datatype PostUpload = PostUpload(fields: map<string, string>, size: int)

  /** S3's check of an upload against the policy of a presigned POST. */
  predicate Admits(req: PostRequest, upload: PostUpload) {
    forall i | 0 <= i < |req.conditions| ::
      match req.conditions[i]
      case FieldEquals(f, v) => f in upload.fields && upload.fields[f] == v
      case ContentLengthRange(lo, hi) => lo <= upload.size <= hi
  }

  /** The POST policy pins the ACL and the content type and admits exactly the
      uploads of 1 to FILE_MAX_SIZE bytes that send them. */
  lemma PostPolicyAdmits(cfg: Config, filePath: string, fileType: string, upload: PostUpload)
    ensures Admits(PostRequestFor(cfg, filePath, fileType), upload) <==>
              && "acl" in upload.fields && upload.fields["acl"] == cfg.acl
              && "Content-Type" in upload.fields && upload.fields["Content-Type"] == fileType
              && 1 <= upload.size <= cfg.maxSize
  {
    var req := PostRequestFor(cfg, filePath, fileType);
    if Admits(req, upload) {
      assert req.conditions[0] == FieldEquals("acl", cfg.acl);
      assert req.conditions[1] == FieldEquals("Content-Type", fileType);
      assert req.conditions[2] == ContentLengthRange(1, cfg.maxSize);
    }
  }

  /** `generate_presigned_post`: signs the POST for `filePath`; a client error is
      logged and raised again. */
  function GeneratePresignedPost(cfg: Config, filePath: string, fileType: string, sign: PostRequest -> Result<PresignedPost>): Result<PresignedPost>
  {
    sign(PostRequestFor(cfg, filePath, fileType))
  }

  /** `get_file_content` (and `get_file` without a download path): the bytes, or
      none on any client error. */
  function GetFileContent(b: Bucket, key: string): (r: Option<seq<Byte>>)
    ensures r.Some? <==> HeadObject(b, key).Ok?
    ensures r.Some? ==> r.value == b.objects[key].body
  {
    if key in b.faults || key !in b.objects then None else Some(b.objects[key].body)
  }

  datatype Metadata = Metadata(size: nat, contentType: string)

  /** `get_file_metadata` (last-modified time and ETag are not modelled). */
  function GetFileMetadata(b: Bucket, key: string): (r: Option<Metadata>)
    ensures r.Some? <==> HeadObject(b, key).Ok?
    ensures r.Some? ==> r.value.size == |b.objects[key].body| && r.value.contentType == b.objects[key].contentType
  {
    match HeadObject(b, key)
    case Ok(o) => Some(Metadata(|o.body|, o.contentType))
    case Err(_) => None
  }

  /** `upload_fileobj`: stores the bytes under the given ACL, or the default one when
      the ACL is absent or empty; reports failure instead of raising. */
  function UploadFileobj(b: Bucket, body: seq<Byte>, key: string, contentType: string, acl: Option<string>, defaultAcl: string): (r: (Bucket, bool))
    ensures r.1 <==> key !in b.faults
    ensures !r.1 ==> r.0 == b
    ensures r.1 ==> r.0.objects.Keys == b.objects.Keys + {key}
    ensures r.1 ==> forall k | k in b.objects && k != key :: r.0.objects[k] == b.objects[k]
    ensures r.1 ==> r.0.objects[key].body == body && r.0.objects[key].contentType == contentType
    ensures r.1 && acl.Some? && acl.value != "" ==> r.0.objects[key].acl == acl.value
    ensures r.1 && (acl.None? || acl.value == "") ==> r.0.objects[key].acl == defaultAcl
    ensures r.0.name == b.name && r.0.faults == b.faults
  {
    if key in b.faults then (b, false)
    else
      var effectiveAcl := if acl.None? || acl.value == "" then defaultAcl else acl.value;
      (b.(objects := b.objects[key := StoredObject(body, contentType, effectiveAcl)]), true)
  }

  /** `delete_object` succeeds on an absent key, as S3 does. */
  function DeleteFile(b: Bucket, key: string): (r: (Bucket, bool))
    ensures r.1 <==> key !in b.faults
    ensures !r.1 ==> r.0 == b
    ensures r.1 ==> r.0.objects.Keys == b.objects.Keys - {key}
    ensures r.1 ==> forall k | k in r.0.objects :: r.0.objects[k] == b.objects[k]
    ensures r.0.name == b.name && r.0.faults == b.faults
  {
    if key in b.faults then (b, false)
    else (b.(objects := map k | k in b.objects && k != key :: b.objects[k]), true)
  }

  /** The ACL S3 gives the object a copy request creates when the request names
      none: the source's ACL is not copied. */
  const CopyAcl: string := "private"

  /** `copy_file`: the managed copy reads the source first, so an absent source fails.
      No extra arguments are passed, so the copy keeps the body and content type of
      the source and gets the default ACL. */
  function CopyFile(b: Bucket, source: string, destination: string): (r: (Bucket, bool))
    ensures r.1 <==> HeadObject(b, source).Ok? && destination !in b.faults
    ensures !r.1 ==> r.0 == b
    ensures r.1 ==> r.0.objects == b.objects[destination := b.objects[source].(acl := CopyAcl)]
    ensures r.1 ==> && r.0.objects[destination].body == b.objects[source].body
                    && r.0.objects[destination].contentType == b.objects[source].contentType
                    && r.0.objects[destination].acl == CopyAcl
  {
    if source in b.faults || destination in b.faults || source !in b.objects then (b, false)
    else (b.(objects := b.objects[destination := b.objects[source].(acl := CopyAcl)]), true)
  }

  /** What was uploaded can be read back and is reported to exist, with its size. */
  lemma UploadThenRead(b: Bucket, body: seq<Byte>, key: string, contentType: string, acl: Option<string>, defaultAcl: string)
    requires key !in b.faults
    ensures var b' := UploadFileobj(b, body, key, contentType, acl, defaultAcl).0;
            && GetFileContent(b', key) == Some(body)
            && FileExists(b', key) == Ok(true)
            && GetFileSize(b', key) == Ok(|body|)
            && GetFileMetadata(b', key) == Some(Metadata(|body|, contentType))
            && GetFilePath(b', key) == Ok(GetFileUrl(b.name, key))
  {
  }

  /** After a delete succeeds the key is reported absent, with size 0 and no path. */
  lemma DeleteThenAbsent(b: Bucket, key: string)
    requires key !in b.faults
    ensures var b' := DeleteFile(b, key).0;
            && GetFileContent(b', key) == None
            && FileExists(b', key) == Ok(false)
            && GetFileSize(b', key) == Ok(0)
            && GetFilePath(b', key) == Ok(None)
  {
  }

  /** A successful copy makes the destination read as the source did, with the same
      metadata. */
  lemma CopyThenRead(b: Bucket, source: string, destination: string)
    requires CopyFile(b, source, destination).1
    ensures GetFileContent(CopyFile(b, source, destination).0, destination) == GetFileContent(b, source)
    ensures GetFileMetadata(CopyFile(b, source, destination).0, destination) == GetFileMetadata(b, source)
  {
  }
}

=== FILE: paths.dfy ===
/** ktg_storage/utils.py: generated storage names, the upload path of a record and
    the same-origin URL a browser posts to in local-upload mode. */
module Paths {
  import opened Common
  import opened Uuids

  /** `s.rfind(c)`: the position of the last `c` in `s`, or -1. */
  function LastIndexOf(s: string, c: char): (i: int)
    ensures -1 <= i < |s|
    ensures i >= 0 ==> s[i] == c
    ensures forall j | i < j < |s| :: s[j] != c
  {
    if |s| == 0 then -1
    else if s[|s| - 1] == c then |s| - 1
    else LastIndexOf(s[..|s| - 1], c)
  }

  /** `PurePosixPath(s).name`: the last component of a path, where trailing slashes
      and `.` components are dropped and an empty path has the empty name. */
  function FinalComponent(s: string): (name: string)
    ensures '/' !in name
    ensures name != "."
    ensures |name| <= |s|
    decreases |s|
  {
    if |s| == 0 then ""
    else if s[|s| - 1] == '/' then FinalComponent(s[..|s| - 1])
    else
      var k := LastIndexOf(s, '/');
      if s[k + 1..] == "." then FinalComponent(s[..k + 1])
      else s[k + 1..]
  }

  /** Every character of the final component comes from the path. */
  lemma {:induction false} FinalComponentChars(s: string)
    ensures forall i | 0 <= i < |FinalComponent(s)| :: FinalComponent(s)[i] in s
    decreases |s|
  {
    var name := FinalComponent(s);
    if |s| == 0 {
    } else if s[|s| - 1] == '/' {
      var front := s[..|s| - 1];
      FinalComponentChars(front);
      assert name == FinalComponent(front);
      forall i | 0 <= i < |name| ensures name[i] in s {
        var j :| 0 <= j < |front| && front[j] == name[i];
        assert s[j] == front[j];
      }
    } else {
      var k := LastIndexOf(s, '/');
      if s[k + 1..] == "." {
        var front := s[..k + 1];
        FinalComponentChars(front);
        assert name == FinalComponent(front);
        forall i | 0 <= i < |name| ensures name[i] in s {
          var j :| 0 <= j < |front| && front[j] == name[i];
          assert s[j] == front[j];
        }
      } else {
        forall i | 0 <= i < |name| ensures name[i] in s {
          assert name[i] == s[k + 1 + i];
        }
      }
    }
  }

  /** `PurePosixPath(s).suffix` (Python 3.12): from the last dot of the final
      component, provided that dot is neither its first nor its last character. */
  function Suffix(s: string): (ext: string)
    ensures ext == "" || (|ext| >= 2 && ext[0] == '.' && forall i | 1 <= i < |ext| :: ext[i] != '.')
    ensures var name := FinalComponent(s);
            ext == "" <==> name == "" || '.' !in name[1..] || name[|name| - 1] == '.'
    ensures '/' !in ext
    ensures ext != "" ==>
              var name := FinalComponent(s);
              |ext| < |name| && name[|name| - |ext|..] == ext
  {
    var name := FinalComponent(s);
    var i := LastIndexOf(name, '.');
    InteriorDot(name, i);
    if 0 < i < |name| - 1 then
      assert forall j | 0 <= j < |name[i..]| :: name[i..][j] == name[i + j];
      name[i..]
    else ""
  }

  /** The last dot of a name lies strictly inside it exactly when the name has a
      dot after its first character and does not end with one. */
  lemma InteriorDot(name: string, i: int)
    requires i == LastIndexOf(name, '.')
    ensures 0 < i < |name| - 1 <==> name != "" && '.' in name[1..] && name[|name| - 1] != '.'
  {
    if 0 < i < |name| - 1 {
      assert name[1..][i - 1] == '.';
    }
    if name != "" && '.' in name[1..] {
      var j :| 0 <= j < |name[1..]| && name[1..][j] == '.';
      assert name[j + 1] == '.';
    }
  }

  /** `file_generate_name`: a fresh token followed by the suffix of the original name. */
  function GenerateName(token: Token, original: string): (name: string)
    ensures |name| >= 32 && |name| <= 32 + |original|
    ensures '/' !in name
  {
    token + Suffix(original)
  }

  /** Two generated names are equal only when their tokens are: a fresh token gives
      a name no earlier record has, whatever the original names were. */
  lemma GeneratedNameIdentifiesToken(t1: Token, o1: string, t2: Token, o2: string)
    ensures GenerateName(t1, o1) == GenerateName(t2, o2) ==> t1 == t2
  {
    if GenerateName(t1, o1) == GenerateName(t2, o2) {
      assert t1 == GenerateName(t1, o1)[..32];
      assert t2 == GenerateName(t2, o2)[..32];
    }
  }

  /** `LastIndexOf` is determined by its contract. */
  lemma LastIndexOfIs(s: string, c: char, i: int)
    requires -1 <= i < |s|
    requires i >= 0 ==> s[i] == c
    requires forall j | i < j < |s| :: s[j] != c
    ensures LastIndexOf(s, c) == i
  {
  }

  /** A single segment other than `.` is its own final component. */
  lemma FinalComponentOfSegment(s: string)
    requires s != "" && s != "." && '/' !in s
    ensures FinalComponent(s) == s
  {
    LastIndexOfIs(s, '/', -1);
    assert s[0..] == s;
  }

  /** A name without an extension (no dot after its first character, or a dot at
      its end) gives the bare token. */
  lemma GeneratedNameWithoutExtension(token: Token, s: string)
    requires s != "" && s != "." && '/' !in s
    requires '.' !in s[1..] || s[|s| - 1] == '.'
    ensures GenerateName(token, s) == token
  {
    FinalComponentOfSegment(s);
  }

  /** The generated name of `stem.ext` is the token and `.ext`: the stem is dropped. */
  lemma GeneratedNameKeepsExtension(token: Token, stem: string, ext: string)
    requires stem != "" && ext != ""
    requires '/' !in stem && '/' !in ext && '.' !in ext
    ensures GenerateName(token, stem + "." + ext) == token + "." + ext
  {
    var s := stem + "." + ext;
    DottedNameParts(stem, ext);
    FinalComponentOfSegment(s);
    SuffixOfSegment(s, |stem|);
  }

  /** `stem.ext` is one segment whose last dot is the one after the stem. */
  lemma DottedNameParts(stem: string, ext: string)
    requires stem != "" && ext != ""
    requires '/' !in stem && '/' !in ext && '.' !in ext
    ensures var s := stem + "." + ext;
            && |s| >= 3 && s != "." && '/' !in s
            && LastIndexOf(s, '.') == |stem| && s[|stem|..] == "." + ext
  {
    var s := stem + "." + ext;
    forall j | 0 <= j < |s| ensures s[j] != '/' {
      if j < |stem| {
        assert s[j] == stem[j];
      } else if j > |stem| {
        assert s[j] == ext[j - |stem| - 1];
      }
    }
    assert s[|stem|] == '.';
    forall j | |stem| < j < |s| ensures s[j] != '.' {
      assert s[j] == ext[j - |stem| - 1];
    }
    LastIndexOfIs(s, '.', |stem|);
    assert s[|stem|..] == "." + ext;
  }

  /** The suffix of a segment whose last dot lies strictly inside it starts at that dot. */
  lemma SuffixOfSegment(s: string, i: int)
    requires FinalComponent(s) == s
    requires i == LastIndexOf(s, '.') && 0 < i < |s| - 1
    ensures Suffix(s) == s[i..]
  {
  }

  /** The last slash of `a + b` lies in `b` if `b` has one. */
  lemma LastIndexOfAppend(a: string, b: string, c: char)
    ensures LastIndexOf(a + b, c) ==
            if LastIndexOf(b, c) >= 0 then |a| + LastIndexOf(b, c) else LastIndexOf(a, c)
  {
    var ab := a + b;
    var kb := LastIndexOf(b, c);
    if kb >= 0 {
      assert ab[|a| + kb] == b[kb];
      forall j | |a| + kb < j < |ab| ensures ab[j] != c {
        assert ab[j] == b[j - |a|];
      }
      LastIndexOfIs(ab, c, |a| + kb);
    } else {
      var ka := LastIndexOf(a, c);
      if ka >= 0 {
        assert ab[ka] == a[ka];
      }
      forall j | ka < j < |ab| ensures ab[j] != c {
        if j < |a| {
          assert ab[j] == a[j];
        } else {
          assert ab[j] == b[j - |a|];
        }
      }
      LastIndexOfIs(ab, c, ka);
    }
  }

  /** Whatever directory precedes the final component, the final component is the
      same. */
  lemma {:induction false} FinalComponentIgnoresDirectory(dir: string, s: string)
    requires FinalComponent(s) != ""
    ensures FinalComponent(dir + "/" + s) == FinalComponent(s)
    decreases |s|, 2
  {
    if s[|s| - 1] == '/' {
      TrailingSlashIgnoresDirectory(dir, s);
    } else if LastIndexOf(s, '/') < 0 {
      SegmentUnderDirectory(dir + "/", s);
    } else {
      InnerSlashIgnoresDirectory(dir, s);
    }
  }

  /** The induction step for a path ending in a slash. */
  lemma {:induction false} TrailingSlashIgnoresDirectory(dir: string, s: string)
    requires s != "" && s[|s| - 1] == '/' && FinalComponent(s) != ""
    ensures FinalComponent(dir + "/" + s) == FinalComponent(s)
    decreases |s|, 0
  {
    var t := s[..|s| - 1];
    TrailingSlashUnderDirectory(dir + "/", s);
    FinalComponentIgnoresDirectory(dir, t);
  }

  /** The induction step for a path whose last segment follows a slash inside it. */
  lemma {:induction false} InnerSlashIgnoresDirectory(dir: string, s: string)
    requires s != "" && s[|s| - 1] != '/' && LastIndexOf(s, '/') >= 0 && FinalComponent(s) != ""
    ensures FinalComponent(dir + "/" + s) == FinalComponent(s)
    decreases |s|, 1
  {
    var k := LastIndexOf(s, '/');
    var last, front := s[k + 1..], s[..k + 1];
    UnfoldAtSlash(s, k, last, front);
    var a := dir + "/";
    InnerSlashUnderDirectory(a, s);
    if last == "." {
      assert FinalComponent(a + s) == FinalComponent(a + front);
      DotSegmentIgnoresDirectory(dir, s, front);
    } else {
      assert FinalComponent(a + s) == last;
    }
  }

  /** The induction step for a last segment `.`: the path reads as its front part,
      with or without the directory. */
  lemma {:induction false} DotSegmentIgnoresDirectory(dir: string, s: string, front: string)
    requires |front| < |s|
    requires FinalComponent(s) == FinalComponent(front) && FinalComponent(front) != ""
    requires FinalComponent(dir + "/" + s) == FinalComponent(dir + "/" + front)
    ensures FinalComponent(dir + "/" + s) == FinalComponent(s)
    decreases |s|, 0
  {
    FinalComponentIgnoresDirectory(dir, front);
  }

  /** A trailing slash is dropped the same way with or without a directory in front. */
  lemma TrailingSlashUnderDirectory(a: string, s: string)
    requires s != "" && s[|s| - 1] == '/'
    ensures FinalComponent(a + s) == FinalComponent(a + s[..|s| - 1])
    ensures FinalComponent(s) == FinalComponent(s[..|s| - 1])
  {
    var p := a + s;
    assert p[|p| - 1] == s[|s| - 1];
    assert p[..|p| - 1] == a + s[..|s| - 1];
  }

  /** A slash-free last segment other than `.` is the final component behind any
      directory that ends in a slash. */
  lemma SegmentUnderDirectory(a: string, s: string)
    requires a != "" && a[|a| - 1] == '/'
    requires s != "" && s[|s| - 1] != '/' && LastIndexOf(s, '/') < 0
    requires FinalComponent(s) != ""
    ensures FinalComponent(a + s) == FinalComponent(s)
  {
    var p := a + s;
    assert p[|p| - 1] == s[|s| - 1];
    LastIndexOfAppend(a, s, '/');
    LastIndexOfIs(a, '/', |a| - 1);
    assert s[0..] == s;
    assert p[|a|..] == s;
  }

  /** When the last segment follows a slash inside `s`, the directory in front
      changes nothing about how it is read. */
  lemma InnerSlashUnderDirectory(a: string, s: string)
    requires s != "" && s[|s| - 1] != '/' && LastIndexOf(s, '/') >= 0
    ensures var k := LastIndexOf(s, '/');
            FinalComponent(a + s) == (if s[k + 1..] == "." then FinalComponent(a + s[..k + 1]) else s[k + 1..])
  {
    var p := a + s;
    var k := LastIndexOf(s, '/');
    assert p[|p| - 1] == s[|s| - 1];
    LastIndexOfAppendHit(a, s, '/');
    SlicesOfAppend(a, s, k + 1);
    UnfoldAtSlash(p, |a| + k, s[k + 1..], a + s[..k + 1]);
  }

  /** `UnfoldFinalComponent` with the last slash and the two pieces around it named. */
  lemma UnfoldAtSlash(p: string, kp: int, last: string, front: string)
    requires p != "" && p[|p| - 1] != '/' && kp == LastIndexOf(p, '/')
    requires last == p[kp + 1..] && front == p[..kp + 1]
    ensures FinalComponent(p) == if last == "." then FinalComponent(front) else last
  {
    UnfoldFinalComponent(p);
  }

  /** The last `c` of `a + b` is the last of `b` when `b` has one. */
  lemma LastIndexOfAppendHit(a: string, b: string, c: char)
    requires LastIndexOf(b, c) >= 0
    ensures LastIndexOf(a + b, c) == |a| + LastIndexOf(b, c)
  {
    var ab := a + b;
    var kb := LastIndexOf(b, c);
    assert ab[|a| + kb] == b[kb];
    forall j | |a| + kb < j < |ab| ensures ab[j] != c {
      assert ab[j] == b[j - |a|];
    }
    LastIndexOfIs(ab, c, |a| + kb);
  }

  /** One step of `FinalComponent` on a path that does not end in a slash. */
  lemma UnfoldFinalComponent(p: string)
    requires p != "" && p[|p| - 1] != '/'
    ensures var kp := LastIndexOf(p, '/');
            FinalComponent(p) == if p[kp + 1..] == "." then FinalComponent(p[..kp + 1]) else p[kp + 1..]
  {
  }

  lemma SlicesOfAppend(a: string, s: string, i: int)
    requires 0 <= i <= |s|
    ensures (a + s)[|a| + i..] == s[i..]
    ensures (a + s)[..|a| + i] == a + s[..i]
  {
  }

  /** Whatever directory precedes the original name, the generated name is the
      same: no directory part of the original reaches the storage name. */
  lemma GeneratedNameIgnoresDirectory(token: Token, dir: string, original: string)
    requires FinalComponent(original) != ""
    ensures GenerateName(token, dir + "/" + original) == GenerateName(token, original)
  {
    FinalComponentIgnoresDirectory(dir, original);
  }

  const UploadDirectory: string := "files/"

  /** `file_generate_upload_path`: the storage path of a record depends only on its
      generated `file_name`, never on the uploaded file's own name. */
  function UploadPath(fileName: string): (path: string)
    ensures |path| == |UploadDirectory| + |fileName|
  {
    UploadDirectory + fileName
  }

  /** The generated name stored at an upload path, if it is one. */
  function FileNameOfUploadPath(path: string): Option<string> {
    if |path| >= |UploadDirectory| && path[..|UploadDirectory|] == UploadDirectory
    then Some(path[|UploadDirectory|..])
    else None
  }

  lemma UploadPathRoundTrip(fileName: string, path: string)
    ensures FileNameOfUploadPath(UploadPath(fileName)) == Some(fileName)
    ensures FileNameOfUploadPath(path) == Some(fileName) ==> UploadPath(fileName) == path
  {
    assert UploadPath(fileName)[..|UploadDirectory|] == UploadDirectory;
    assert UploadPath(fileName)[|UploadDirectory|..] == fileName;
    if FileNameOfUploadPath(path) == Some(fileName) {
      assert path == path[..|UploadDirectory|] + path[|UploadDirectory|..];
    }
  }

  /** The route named `direct_local_upload`, relative to where the app is mounted. */
  const LocalUploadRoute: string := "upload/direct/local/"

  /** `file_generate_local_upload_url`: the app domain, then `reverse()` of the local
      upload route for `fileId`. `mount` is the URL prefix under which the project
      includes the app's URLconf (it begins and ends with '/'). */
  function LocalUploadUrl(appDomain: string, mount: string, fileId: string): (url: string)
    ensures var p := appDomain + mount + LocalUploadRoute;
            && |url| == |p| + |fileId| + 1 && url[..|p|] == p
            && url[|p|..|url| - 1] == fileId && url[|url| - 1] == '/'
    ensures fileId != "" && '/' !in fileId ==> ResolveLocalUploadUrl(appDomain, mount, url) == Some(fileId)
  {
    var p := appDomain + mount + LocalUploadRoute;
    var url := p + fileId + "/";
    assert url[..|p|] == p;
    assert url[|p|..|url| - 1] == fileId;
    url
  }

  /** URL resolution of the local upload route: `<str:file_id>` matches one
      non-empty path segment. */
  function ResolveLocalUploadUrl(appDomain: string, mount: string, url: string): (fileId: Option<string>)
    ensures fileId.Some? ==> fileId.value != "" && '/' !in fileId.value
  {
    var p := appDomain + mount + LocalUploadRoute;
    if |url| > |p| + 1 && url[..|p|] == p && url[|url| - 1] == '/' && '/' !in url[|p|..|url| - 1]
    then Some(url[|p|..|url| - 1])
    else None
  }

  /** The URL `start` hands out in local mode leads back to that record, and only
      URLs built that way resolve. */
  lemma LocalUploadUrlRoundTrip(appDomain: string, mount: string, fileId: string, url: string)
    requires fileId != "" && '/' !in fileId
    ensures ResolveLocalUploadUrl(appDomain, mount, LocalUploadUrl(appDomain, mount, fileId)) == Some(fileId)
    ensures ResolveLocalUploadUrl(appDomain, mount, url) == Some(fileId) ==> LocalUploadUrl(appDomain, mount, fileId) == url
  {
    var p := appDomain + mount + LocalUploadRoute;
    var u := LocalUploadUrl(appDomain, mount, fileId);
    assert u == p + fileId + "/";
    assert u[..|p|] == p;
    assert u[|p|..|u| - 1] == fileId;
    if ResolveLocalUploadUrl(appDomain, mount, url) == Some(fileId) {
      assert url == url[..|p|] + url[|p|..|url| - 1] + [url[|url| - 1]];
    }
  }
}

=== FILE: records.dfy ===
/** ktg_storage/models.py: the `Storage` record, the table that holds it, the
    validation and the write Django performs on `full_clean()` and `save()`, and the
    queries of the `FileManger` manager. */
module Records {
  import opened Common
  import opened Uuids
  import opened Settings

  /** An instant, in microseconds since the Unix epoch, UTC. */
  type Time = int

  const Day: int := 86_400_000_000

  /** The primary key of a user of the project's user model. */
  type UserId = nat

  /** The value of the `attachment` file field: the storage name it refers to, and the
      bytes an assignment attached that the next save writes (none when the field only
      names a path). */
  datatype Attachment = Attachment(name: string, content: Option<seq<Byte>>)

  datatype Storage = Storage(
    id: Id,
    isDeleted: bool,
    createdAt: Time,
    updatedAt: Time,
    attachment: Option<Attachment>,
    originalFileName: string,
    fileName: string,
    fileType: string,
    uploadedBy: Option<UserId>,
    uploadFinishedAt: Option<Time>,
    expireAt: Option<Time>,
    reminder: Option<Time>)
  {
    /** `is_valid`: the upload has been finished. */
    predicate IsValid() {
      uploadFinishedAt.Some?
    }
  }

  /** The `Storage` table, by primary key. */
  type Store = map<Id, Storage>

  const MaxCharFieldLength: int := 255

  /** The per-field checks of `full_clean()`: the text fields are not blank and the
      two `CharField`s fit their `max_length`. */
  predicate FieldsValid(r: Storage) {
    && r.originalFileName != ""
    && r.fileName != "" && |r.fileName| <= MaxCharFieldLength
    && r.fileType != "" && |r.fileType| <= MaxCharFieldLength
  }

  /** No other row has this record's `file_name`: what the table's unique
      constraint demands. */
  predicate NameFree(store: Store, r: Storage) {
    forall id | id in store && id != r.id :: store[id].fileName != r.fileName
  }

  /** No other live row has this record's `file_name`: what the uniqueness check of
      `full_clean()` sees, since it queries the default manager, which hides
      soft-deleted rows. */
  predicate LiveNameFree(store: Store, r: Storage) {
    forall id | id in store && id != r.id && !store[id].isDeleted :: store[id].fileName != r.fileName
  }

  /** `full_clean()`: the field checks, then the uniqueness of the primary key (for a
      new row) and of `file_name`, both among the live rows. */
  function FullClean(store: Store, r: Storage, adding: bool): (o: Outcome)
    ensures o.Pass? <==> FieldsValid(r) && !(adding && r.id in store && !store[r.id].isDeleted) && LiveNameFree(store, r)
    ensures o.Fail? ==> o.error.ValidationError?
  {
    if r.originalFileName == "" then Fail(ValidationError("original_file_name: This field cannot be blank."))
    else if r.fileName == "" then Fail(ValidationError("file_name: This field cannot be blank."))
    else if |r.fileName| > MaxCharFieldLength then Fail(ValidationError("file_name: Ensure this value has at most 255 characters."))
    else if r.fileType == "" then Fail(ValidationError("file_type: This field cannot be blank."))
    else if |r.fileType| > MaxCharFieldLength then Fail(ValidationError("file_type: Ensure this value has at most 255 characters."))
    else if adding && r.id in store && !store[r.id].isDeleted then Fail(ValidationError("id: Storage with this Id already exists."))
    else if !LiveNameFree(store, r) then Fail(ValidationError("file_name: Storage with this File name already exists."))
    else Pass
  }

  /** The timestamps `save()` sets: `created_at` on insertion, `updated_at` always. */
  function Stamp(r: Storage, adding: bool, now: Time): (s: Storage)
    ensures s.(createdAt := r.createdAt, updatedAt := r.updatedAt) == r
    ensures s.updatedAt == now && (adding ==> s.createdAt == now) && (!adding ==> s.createdAt == r.createdAt)
  {
    r.(createdAt := if adding then now else r.createdAt, updatedAt := now)
  }

  /** The row write of `save()`, once nothing stands in its way. */
  function Write(store: Store, r: Storage, adding: bool, now: Time): (s: Store)
    ensures s.Keys == store.Keys + {r.id}
    ensures s[r.id] == Stamp(r, adding, now)
    ensures forall id | id in store && id != r.id :: s[id] == store[id]
  {
    store[r.id := Stamp(r, adding, now)]
  }

  /** `save()` without a preceding `full_clean()`: the primary key and `file_name`
      constraints of the table reject a clash. */
  function Persist(store: Store, r: Storage, adding: bool, now: Time): (s: Result<Store>)
    ensures s.Ok? <==> !(adding && r.id in store) && NameFree(store, r)
    ensures s.Err? ==> s.error.IntegrityError?
    ensures s.Ok? ==> s.value == Write(store, r, adding, now)
  {
    if adding && r.id in store then Err(IntegrityError("duplicate key value violates unique constraint on id"))
    else if !NameFree(store, r) then Err(IntegrityError("duplicate key value violates unique constraint on file_name"))
    else Ok(Write(store, r, adding, now))
  }

  /** What a clean followed by a save needs: valid fields, an unused key for a new
      row, and a `file_name` no other row has. */
  predicate Storable(store: Store, r: Storage, adding: bool) {
    FieldsValid(r) && !(adding && r.id in store) && NameFree(store, r)
  }

  /** `full_clean()` followed by `save()`: the clean refuses clashes with live rows
      (ValidationError), the table's constraints those with deleted ones
      (IntegrityError). */
  function CleanAndSave(store: Store, r: Storage, adding: bool, now: Time): (s: Result<Store>)
    ensures s.Ok? <==> Storable(store, r, adding)
    ensures s.Err? ==> s.error.ValidationError? || s.error.IntegrityError?
    ensures s.Ok? ==> s == Persist(store, r, adding, now)
  {
    var clean := FullClean(store, r, adding);
    :- clean;
    Persist(store, r, adding, now)
  }

  /** The clean does not see soft-deleted rows: a `file_name` only a deleted row has
      passes `full_clean()` and is then refused by the table's constraint. */
  lemma CleanMissesDeletedRows(store: Store, r: Storage, adding: bool, now: Time, other: Id)
    requires other in store && other != r.id && store[other].isDeleted && store[other].fileName == r.fileName
    requires FieldsValid(r) && !(adding && r.id in store) && LiveNameFree(store, r)
    ensures FullClean(store, r, adding).Pass?
    ensures CleanAndSave(store, r, adding, now).Err? && CleanAndSave(store, r, adding, now).error.IntegrityError?
  {
    assert !NameFree(store, r);
  }

  /** Every row is stored under its own primary key. */
  predicate WellKeyed(store: Store) {
    forall id | id in store :: store[id].id == id
  }

  /** `file_name` is `unique=True`. */
  predicate UniqueNames(store: Store) {
    forall a, b | a in store && b in store && a != b :: store[a].fileName != store[b].fileName
  }

  /** What the table keeps true between requests: rows under their own keys, unique
      `file_name`s, and every row as `full_clean()` left it. */
  predicate Consistent(store: Store) {
    && WellKeyed(store)
    && UniqueNames(store)
    && forall id | id in store :: FieldsValid(store[id])
  }

  /** Writing a record that passes the field checks and clashes with no other row
      keeps the table consistent. */
  lemma WriteKeepsConsistent(store: Store, r: Storage, adding: bool, now: Time)
    requires Consistent(store) && FieldsValid(r) && NameFree(store, r)
    ensures Consistent(Write(store, r, adding, now))
  {
    var s := Write(store, r, adding, now);
    forall a, b | a in s && b in s && a != b
      ensures s[a].fileName != s[b].fileName
    {
      if a == r.id {
        assert store[b].fileName != r.fileName;
      } else if b == r.id {
        assert store[a].fileName != r.fileName;
      }
    }
  }

  /** The rows of `store` that `keep` accepts. */
  function Filter(store: Store, keep: Storage -> bool): (m: Store)
    ensures m.Keys <= store.Keys
    ensures forall id | id in store :: id in m <==> keep(store[id])
    ensures forall id | id in m :: m[id] == store[id]
  {
    map id | id in store && keep(store[id]) :: store[id]
  }

  /** `FileManger.get_queryset`, as a set of rows: everything not soft-deleted. */
  function Active(store: Store): (m: Store)
    ensures forall id :: id in m <==> id in store && !store[id].isDeleted
    ensures forall id | id in m :: m[id] == store[id]
  {
    Filter(store, (r: Storage) => !r.isDeleted)
  }

  /** `get_user_files`: the user's finished, not deleted files. */
  function UserFiles(store: Store, user: UserId): (m: Store)
    ensures forall id :: id in m <==>
              id in store && !store[id].isDeleted && store[id].uploadedBy == Some(user) && store[id].IsValid()
    ensures forall id | id in m :: m[id] == store[id]
  {
    Filter(Active(store), (r: Storage) => r.uploadedBy == Some(user) && r.IsValid())
  }

  /** `now.replace(hour=0, minute=0, second=0, microsecond=0)`. */
  function StartOfDay(now: Time): Time {
    now - now % Day
  }

  /** `now.replace(hour=23, minute=59, second=59, microsecond=999999)`. */
  function EndOfDay(now: Time): Time {
    StartOfDay(now) + Day - 1
  }

  /** The inclusive `__range` filter of the two day queries. */
  predicate InToday(t: Option<Time>, now: Time) {
    t.Some? && StartOfDay(now) <= t.value <= EndOfDay(now)
  }

  /** The window is exactly the UTC calendar day of `now`: from midnight to one
      microsecond before the next midnight, both ends included. */
  lemma TodayIsCalendarDay(t: Time, now: Time)
    ensures StartOfDay(now) % Day == 0 && EndOfDay(now) % Day == Day - 1
    ensures StartOfDay(now) <= now <= EndOfDay(now)
    ensures InToday(Some(t), now) <==> t / Day == now / Day
  {
    var q := now / Day;
    assert StartOfDay(now) == Day * q;
    assert EndOfDay(now) == Day * q + (Day - 1);
    if Day * q <= t <= Day * q + (Day - 1) {
      assert t / Day == q by {
        assert t == Day * q + (t - Day * q);
      }
    }
    if t / Day == q {
      assert t == Day * (t / Day) + t % Day;
    }
  }

  /** `get_files_that_expire_today`: not deleted, `expire_at` on today's UTC date;
      neither the owner nor completion is consulted. */
  function ExpireToday(store: Store, now: Time): (m: Store)
    ensures forall id :: id in m <==>
              && id in store && !store[id].isDeleted
              && store[id].expireAt.Some? && store[id].expireAt.value / Day == now / Day
    ensures forall id | id in m :: m[id] == store[id]
  {
    var m := Filter(Active(store), (r: Storage) => InToday(r.expireAt, now));
    assert forall id | id in store && store[id].expireAt.Some? ::
             InToday(store[id].expireAt, now) <==> store[id].expireAt.value / Day == now / Day by {
      forall id | id in store && store[id].expireAt.Some? {
        TodayIsCalendarDay(store[id].expireAt.value, now);
      }
    }
    m
  }

  /** `get_files_that_need_to_remind_today`: the same window on `reminder`. */
  function RemindToday(store: Store, now: Time): (m: Store)
    ensures forall id :: id in m <==>
              && id in store && !store[id].isDeleted
              && store[id].reminder.Some? && store[id].reminder.value / Day == now / Day
    ensures forall id | id in m :: m[id] == store[id]
  {
    var m := Filter(Active(store), (r: Storage) => InToday(r.reminder, now));
    assert forall id | id in store && store[id].reminder.Some? ::
             InToday(store[id].reminder, now) <==> store[id].reminder.value / Day == now / Day by {
      forall id | id in store && store[id].reminder.Some? {
        TodayIsCalendarDay(store[id].reminder.value, now);
      }
    }
    m
  }

  /** The boundaries of the day queries: midnight and 23:59:59.999999 are in, one
      microsecond either side is out. */
  lemma DayWindowBoundaries(now: Time)
    ensures InToday(Some(StartOfDay(now)), now) && InToday(Some(EndOfDay(now)), now)
    ensures !InToday(Some(StartOfDay(now) - 1), now) && !InToday(Some(EndOfDay(now) + 1), now)
    ensures !InToday(None, now)
    ensures EndOfDay(now) + 1 == StartOfDay(now + Day)
  {
    var q := now / Day;
    assert now + Day == Day * (q + 1) + now % Day;
    assert (now + Day) / Day == q + 1 && (now + Day) % Day == now % Day;
  }

  /** `url`: the attachment's storage URL, behind `APP_DOMAIN` unless the app stores
      on S3; an attachment that is null or has an empty name has no URL. */
  function FileUrl(cfg: Config, r: Storage, storageUrl: string -> string): (url: Result<string>)
    ensures url.Ok? <==> r.attachment.Some? && r.attachment.value.name != ""
    ensures url.Err? ==> url.error.ValueError?
    ensures url.Ok? && cfg.uploadStorage == S3Storage ==> url.value == storageUrl(r.attachment.value.name)
    ensures url.Ok? && cfg.uploadStorage != S3Storage ==>
              && |url.value| == |cfg.appDomain| + |storageUrl(r.attachment.value.name)|
              && url.value[..|cfg.appDomain|] == cfg.appDomain
              && url.value[|cfg.appDomain|..] == storageUrl(r.attachment.value.name)
  {
    if r.attachment.None? || r.attachment.value.name == "" then Err(ValueError("The 'attachment' attribute has no file associated with it."))
    else if cfg.uploadStorage == S3Storage then Ok(storageUrl(r.attachment.value.name))
    else Ok(cfg.appDomain + storageUrl(r.attachment.value.name))
  }

  /** `order_by("-created_at")`. */
  predicate NewestFirst(s: seq<Storage>) {
    forall i, j | 0 <= i < j < |s| :: s[i].createdAt >= s[j].createdAt
  }

  /** Places `r` before the first row created earlier than it. */
  function InsertByAge(s: seq<Storage>, r: Storage): (t: seq<Storage>)
    ensures |t| == |s| + 1
    ensures r in t
    ensures forall x | x in s :: x in t
    ensures forall k | 0 <= k < |t| :: t[k] == r || t[k] in s
    decreases |s|
  {
    if |s| == 0 then [r]
    else if r.createdAt >= s[0].createdAt then [r] + s
    else
      var rest := InsertByAge(s[1..], r);
      assert forall x | x in s :: x == s[0] || x in s[1..];
      [s[0]] + rest
  }

  /** Inserting into a newest-first list keeps it newest first. */
  lemma {:induction false} InsertByAgeKeepsOrder(s: seq<Storage>, r: Storage)
    requires NewestFirst(s)
    ensures NewestFirst(InsertByAge(s, r))
    decreases |s|
  {
    if |s| > 0 && r.createdAt < s[0].createdAt {
      InsertByAgeKeepsOrder(s[1..], r);
      var rest := InsertByAge(s[1..], r);
      assert forall k | 0 <= k < |rest| :: s[0].createdAt >= rest[k].createdAt;
    }
  }

  /** No two keys hold the same row; a well-keyed table has this. */
  predicate DistinctRows(m: Store) {
    forall a, b | a in m && b in m && a != b :: m[a] != m[b]
  }

  predicate NoRepeats(s: seq<Storage>) {
    forall i, j | 0 <= i < j < |s| :: s[i] != s[j]
  }

  /** Inserting a row not yet listed keeps the rows of the list apart. */
  lemma {:induction false} InsertByAgeKeepsRowsApart(s: seq<Storage>, r: Storage)
    requires NoRepeats(s) && r !in s
    ensures NoRepeats(InsertByAge(s, r))
    decreases |s|
  {
    if |s| > 0 && r.createdAt < s[0].createdAt {
      assert s[0] !in s[1..];
      InsertByAgeKeepsRowsApart(s[1..], r);
    }
  }

  /** The rows of `m` listed newest first: every row once and nothing else. */
  method ListNewestFirst(m: Store) returns (s: seq<Storage>)
    ensures NewestFirst(s)
    ensures |s| == |m|
    ensures forall i | 0 <= i < |s| :: s[i] in m.Values
    ensures forall id | id in m :: m[id] in s
    ensures DistinctRows(m) ==> NoRepeats(s)
  {
    s := [];
    var rest := m.Keys;
    while rest != {}
      invariant rest <= m.Keys
      invariant NewestFirst(s)
      invariant |s| + |rest| == |m|
      invariant forall i | 0 <= i < |s| :: s[i] in m.Values
      invariant forall id | id in m && id !in rest :: m[id] in s
      invariant DistinctRows(m) ==> NoRepeats(s) && forall id | id in rest :: m[id] !in s
      decreases rest
    {
      var id :| id in rest;
      InsertByAgeKeepsOrder(s, m[id]);
      if DistinctRows(m) {
        InsertByAgeKeepsRowsApart(s, m[id]);
      }
      s := InsertByAge(s, m[id]);
      rest := rest - {id};
    }
  }
}

=== FILE: services.dfy ===
/** ktg_storage/services.py: the size check, the standard (one-request) upload
    service and the direct (start / finish / local upload) service. Each operation
    takes the table and returns the table after its transaction, or the error that
    rolled it back; the clock, the token of `uuid4()`, the new primary key, the MIME
    guess and the presigner are parameters. */
module Services {
  import opened Common
  import opened Uuids
  import opened Settings
  import opened Records
  import Paths
  import StorageNames
  import ObjectStore

  /** An uploaded file as a view receives it: its client-side name and its bytes. */
  datatype Upload = Upload(name: string, content: seq<Byte>) {
    function Size(): nat {
      |content|
    }
  }

  const FileTooBig: string := "file too big"

  /** `_validate_file_size`: a file of exactly FILE_MAX_SIZE bytes is accepted. */
  function ValidateFileSize(size: int, maxSize: int): (o: Outcome)
    ensures o.Pass? <==> size <= maxSize
    ensures o.Fail? ==> o.error == ValidationError(FileTooBig)
  {
    Need(size <= maxSize, ValidationError(FileTooBig))
  }

  /** The largest file the size check lets through is the largest a presigned POST
      admits, but only the POST policy also turns away an empty file. */
  lemma SizeLimitsAgree(cfg: Config, filePath: string, fileType: string, size: int)
    ensures var fields := map["acl" := cfg.acl, "Content-Type" := fileType];
            ObjectStore.Admits(ObjectStore.PostRequestFor(cfg, filePath, fileType), ObjectStore.PostUpload(fields, size)) <==>
              ValidateFileSize(size, cfg.maxSize).Pass? && size >= 1
  {
    var fields := map["acl" := cfg.acl, "Content-Type" := fileType];
    ObjectStore.PostPolicyAdmits(cfg, filePath, fileType, ObjectStore.PostUpload(fields, size));
  }

  /** `mimetypes.guess_type(name)[0]`. */
  type Guesser = string -> Option<string>

  /** `_infer_file_name_and_type`: a non-empty argument wins; otherwise the name of
      the upload, and the type guessed from the resulting name, or "" when there is
      no guess. */
  function InferFileNameAndType(fileName: string, fileType: string, upload: Upload, guess: Guesser): (r: (string, string))
    ensures fileName != "" ==> r.0 == fileName
    ensures fileName == "" ==> r.0 == upload.name
    ensures fileType != "" ==> r.1 == fileType
    ensures fileType == "" ==> r.1 == guess(r.0).GetOr("")
  {
    var name := if fileName == "" then upload.name else fileName;
    var type_ := if fileType == "" then guess(name).GetOr("") else fileType;
    (name, type_)
  }

  /** What an operation leaves behind: the table after the transaction and the record
      it returns. */
  datatype Saved = Saved(store: Store, file: Storage)

  /** The record as saved once its uploaded bytes are stored under `name`. */
  function WithUpload(rec: Storage, name: string, content: seq<Byte>): Storage {
    rec.(attachment := Some(Attachment(name, Some(content))))
  }

  /** `full_clean()` then `save()` of a record whose attachment was just assigned an
      uploaded file. The clean does not look at the attachment; during `save()` the
      file field's `pre_save` stores the bytes under the name `FieldFile.save`
      derives from `files/<file_name>`, and only then is the row written, with that
      name. The errors come in that order: the clean's, the file name's, the
      table's. */
  function SaveUpload(store: Store, rec: Storage, content: seq<Byte>, adding: bool, now: Time): (r: Result<Saved>)
    ensures r.Ok? <==> Storable(store, rec, adding) && StorageNames.SavedName(rec.fileName).Ok?
    ensures FullClean(store, rec, adding).Fail? ==> r == Err(FullClean(store, rec, adding).error)
    ensures FullClean(store, rec, adding).Pass? && StorageNames.SavedName(rec.fileName).Err? ==>
              r == Err(StorageNames.SavedName(rec.fileName).error)
    ensures r.Err? ==> r.error.ValidationError? || r.error.SuspiciousFileOperation? || r.error.IntegrityError?
    ensures r.Ok? ==>
              var saved := WithUpload(rec, StorageNames.SavedName(rec.fileName).value, content);
              && r.value.file == Stamp(saved, adding, now)
              && r.value.store == store[rec.id := r.value.file]
    ensures Consistent(store) && r.Ok? ==> Consistent(r.value.store)
  {
    var clean := FullClean(store, rec, adding);
    :- clean;
    var name :- StorageNames.SavedName(rec.fileName);
    SaveRow(store, WithUpload(rec, name, content), adding, now)
  }

  /** The row write that ends `save()`, for a record whose fields were cleaned. */
  function SaveRow(store: Store, saved: Storage, adding: bool, now: Time): (r: Result<Saved>)
    ensures r.Ok? <==> !(adding && saved.id in store) && NameFree(store, saved)
    ensures r.Err? ==> r.error.IntegrityError?
    ensures r.Ok? ==> r.value.file == Stamp(saved, adding, now) && r.value.store == store[saved.id := r.value.file]
    ensures Consistent(store) && FieldsValid(saved) && r.Ok? ==> Consistent(r.value.store)
  {
    var s :- Persist(store, saved, adding, now);
    if Consistent(store) && FieldsValid(saved) then
      WriteKeepsConsistent(store, saved, adding, now);
      Ok(Saved(s, s[saved.id]))
    else
      Ok(Saved(s, s[saved.id]))
  }

  /** The record the corrected `create` builds and cleans: its attachment is still
      the uploaded file under the upload's own name. */
  function CreatedRecord(user: Option<UserId>, upload: Upload, name: string, type_: string, token: Token, newId: Id, now: Time): Storage {
    var generated := Paths.GenerateName(token, name);
    Storage(
      newId, false, now, now,
      Some(Attachment(upload.name, Some(upload.content))),
      name, generated, type_, user, Some(now), None, None)
  }

  /** `FileStandardUploadService.create` with the evident intent: the upload goes into
      `attachment` and the unknown `object_type` is not passed to the model. The
      record is complete as soon as it exists. */
  function StandardCreate(store: Store, cfg: Config, user: Option<UserId>, upload: Upload, objectType: string,
                          fileName: string, fileType: string, guess: Guesser, token: Token, newId: Id, now: Time): (r: Result<Saved>)
    ensures upload.Size() > cfg.maxSize ==> r == Err(ValidationError(FileTooBig))
    ensures r.Ok? ==>
              var f := r.value.file;
              var inferred := InferFileNameAndType(fileName, fileType, upload, guess);
              && newId !in store
              && r.value.store == store[newId := f]
              && f.id == newId && !f.isDeleted && f.createdAt == now && f.updatedAt == now
              && f.IsValid() && f.uploadFinishedAt == Some(now)
              && f.originalFileName == inferred.0 && f.fileType == inferred.1
              && f.fileName == Paths.GenerateName(token, inferred.0)
              && f.attachment.Some? && f.attachment.value.content == Some(upload.content)
              && StorageNames.SavedName(f.fileName) == Ok(f.attachment.value.name)
              && f.uploadedBy == user && f.expireAt.None? && f.reminder.None?
    ensures r.Ok? <==>
              var inferred := InferFileNameAndType(fileName, fileType, upload, guess);
              && upload.Size() <= cfg.maxSize
              && Storable(store, CreatedRecord(user, upload, inferred.0, inferred.1, token, newId, now), true)
              && StorageNames.SavedName(Paths.GenerateName(token, inferred.0)).Ok?
    ensures r.Err? ==> r.error.ValidationError? || r.error.SuspiciousFileOperation? || r.error.IntegrityError?
    ensures Consistent(store) && r.Ok? ==> Consistent(r.value.store)
  {
    var sizeCheck := ValidateFileSize(upload.Size(), cfg.maxSize);
    :- sizeCheck;
    var (name, type_) := InferFileNameAndType(fileName, fileType, upload, guess);
    var rec := CreatedRecord(user, upload, name, type_, token, newId, now);
    SaveUpload(store, rec, upload.content, true, now)
  }

  /** `FileStandardUploadService.create` as written: after the size check and the
      inference, `Storage(file=..., object_type=...)` names two fields the model does
      not have, and the model constructor raises before anything is cleaned or saved. */
  function StandardCreateAsWritten(store: Store, cfg: Config, user: Option<UserId>, upload: Upload, objectType: string,
                                   fileName: string, fileType: string, guess: Guesser, token: Token, newId: Id, now: Time): (r: Result<Saved>)
    ensures upload.Size() > cfg.maxSize ==> r == Err(ValidationError(FileTooBig))
  {
    var sizeCheck := ValidateFileSize(upload.Size(), cfg.maxSize);
    :- sizeCheck;
    var _ := InferFileNameAndType(fileName, fileType, upload, guess);
    Err(TypeError("Storage() got unexpected keyword arguments: 'file', 'object_type'"))
  }

  /** As written, the standard upload never creates a record: a file within the
      limit fails with the constructor's TypeError, even where the corrected
      operation succeeds on an empty table. */
  lemma StandardCreateAsWrittenNeverCreates(store: Store, cfg: Config, user: Option<UserId>, upload: Upload, objectType: string,
                                            fileName: string, fileType: string, guess: Guesser, token: Token, newId: Id, now: Time)
    ensures StandardCreateAsWritten(store, cfg, user, upload, objectType, fileName, fileType, guess, token, newId, now).Err?
    ensures upload.Size() <= cfg.maxSize ==>
              StandardCreateAsWritten(store, cfg, user, upload, objectType, fileName, fileType, guess, token, newId, now).error.TypeError?
  {
  }

  /** The corrected operation stores `report.pdf` in an empty table, where the
      operation as written raises. */
  lemma StandardCreateStoresReport(cfg: Config, user: Option<UserId>, upload: Upload, objectType: string,
                                   guess: Guesser, token: Token, newId: Id, now: Time)
    requires upload.Size() <= cfg.maxSize
    ensures StandardCreate(map[], cfg, user, upload, objectType, "report.pdf", "application/pdf", guess, token, newId, now).Ok?
    ensures StandardCreateAsWritten(map[], cfg, user, upload, objectType, "report.pdf", "application/pdf", guess, token, newId, now).error.TypeError?
  {
    ReportIsSaved(token);
    var rec := CreatedRecord(user, upload, "report.pdf", "application/pdf", token, newId, now);
    assert Storable(map[], rec, true);
  }

  lemma ReportIsSaved(token: Token)
    ensures StorageNames.SavedName(Paths.GenerateName(token, "report.pdf")).Ok?
  {
    var original := "report.pdf";
    assert '\\' !in original;
    StorageNames.GeneratedNameIsSaved(token, original);
  }

  /** Without an explicit type, a name the guesser does not know gives the type "",
      which `full_clean()` rejects as blank: nothing is stored. */
  lemma StandardCreateRejectsUnknownType(store: Store, cfg: Config, user: Option<UserId>, upload: Upload, objectType: string,
                                         fileName: string, guess: Guesser, token: Token, newId: Id, now: Time)
    requires guess(if fileName == "" then upload.name else fileName).None?
    ensures StandardCreate(store, cfg, user, upload, objectType, fileName, "", guess, token, newId, now).Err?
  {
  }

  /** `FileStandardUploadService.update`: the size check first, then a new upload, a
      freshly generated `file_name`, the uploading user and completion now. The
      record keeps its key, creation time, deletion flag and dates. */
  function StandardUpdate(store: Store, cfg: Config, user: Option<UserId>, upload: Upload, file: Storage,
                          fileName: string, fileType: string, guess: Guesser, token: Token, now: Time): (r: Result<Saved>)
    ensures upload.Size() > cfg.maxSize ==> r == Err(ValidationError(FileTooBig))
    ensures r.Ok? ==>
              var f := r.value.file;
              var inferred := InferFileNameAndType(fileName, fileType, upload, guess);
              && r.value.store == store[file.id := f]
              && f.id == file.id && f.isDeleted == file.isDeleted && f.createdAt == file.createdAt
              && f.expireAt == file.expireAt && f.reminder == file.reminder
              && f.updatedAt == now && f.uploadFinishedAt == Some(now) && f.IsValid()
              && f.originalFileName == inferred.0 && f.fileType == inferred.1
              && f.fileName == Paths.GenerateName(token, inferred.0)
              && f.attachment.Some? && f.attachment.value.content == Some(upload.content)
              && StorageNames.SavedName(f.fileName) == Ok(f.attachment.value.name)
              && f.uploadedBy == user
    ensures r.Ok? <==>
              var inferred := InferFileNameAndType(fileName, fileType, upload, guess);
              && upload.Size() <= cfg.maxSize
              && Storable(store, UpdatedRecord(file, user, upload, inferred.0, inferred.1, token, now), false)
              && StorageNames.SavedName(Paths.GenerateName(token, inferred.0)).Ok?
    ensures r.Err? ==> r.error.ValidationError? || r.error.SuspiciousFileOperation? || r.error.IntegrityError?
    ensures Consistent(store) && r.Ok? ==> Consistent(r.value.store)
  {
    var sizeCheck := ValidateFileSize(upload.Size(), cfg.maxSize);
    :- sizeCheck;
    var (name, type_) := InferFileNameAndType(fileName, fileType, upload, guess);
    var rec := UpdatedRecord(file, user, upload, name, type_, token, now);
    SaveUpload(store, rec, upload.content, false, now)
  }

  /** An update whose record can be stored succeeds whenever the inferred name has
      no backslash: Django can always name the file then. */
  lemma StandardUpdateStorable(store: Store, cfg: Config, user: Option<UserId>, upload: Upload, file: Storage,
                               fileName: string, fileType: string, guess: Guesser, token: Token, now: Time)
    ensures var inferred := InferFileNameAndType(fileName, fileType, upload, guess);
            upload.Size() <= cfg.maxSize && '\\' !in inferred.0
            && Storable(store, UpdatedRecord(file, user, upload, inferred.0, inferred.1, token, now), false) ==>
              StandardUpdate(store, cfg, user, upload, file, fileName, fileType, guess, token, now).Ok?
  {
    var inferred := InferFileNameAndType(fileName, fileType, upload, guess);
    if '\\' !in inferred.0 {
      StorageNames.GeneratedNameIsSaved(token, inferred.0);
    }
  }

  /** The record `update` cleans: the stored one with the new upload, the inferred
      name and type, a freshly generated `file_name`, the uploading user and
      completion now. */
  function UpdatedRecord(file: Storage, user: Option<UserId>, upload: Upload, name: string, type_: string, token: Token, now: Time): Storage {
    file.(
      attachment := Some(Attachment(upload.name, Some(upload.content))),
      originalFileName := name,
      fileName := Paths.GenerateName(token, name),
      fileType := type_,
      uploadedBy := user,
      uploadFinishedAt := Some(now))
  }

  /** The validated input of `start`; `user` is there only when the serializer put it
      there. */
  datatype StartData = StartData(fileName: string, fileType: string, user: Option<UserId>, expireAt: Option<Time>, reminder: Option<Time>)

  /** `presigned_data`: the signed S3 POST, or `{"url": ...}` for a local upload. */
  datatype PresignedData = RemotePost(post: ObjectStore.PresignedPost) | LocalUrl(url: string)

  datatype Started = Started(store: Store, file: Storage, presignedData: PresignedData)

  /** The pending record `start` stores: no attachment yet at `full_clean()` time,
      not finished. */
  function PendingRecord(data: StartData, token: Token, newId: Id, now: Time): Storage {
    Storage(
      newId, false, now, now, None,
      data.fileName, Paths.GenerateName(token, data.fileName), data.fileType,
      data.user, None, data.expireAt, data.reminder)
  }

  /** The POST `start` asks the presigner to sign for a pending record. */
  function StartPostRequest(cfg: Config, data: StartData, token: Token): ObjectStore.PostRequest {
    ObjectStore.PostRequestFor(cfg, Paths.UploadPath(Paths.GenerateName(token, data.fileName)), data.fileType)
  }

  /** `FileDirectUploadService.start`. The record is cleaned without an attachment
      and saved; its attachment is then pointed at `files/<file_name>` and saved
      again, which changes nothing else, so both saves are modelled as one write.
      The transaction rolls back when presigning raises. */
  function Start(store: Store, cfg: Config, data: StartData, token: Token, newId: Id, now: Time,
                 sign: ObjectStore.PostRequest -> Result<ObjectStore.PresignedPost>): (r: Result<Started>)
    ensures r.Ok? ==>
              var f := r.value.file;
              && newId !in store
              && r.value.store == store[newId := f]
              && f.id == newId && !f.isDeleted && f.createdAt == now && f.updatedAt == now
              && !f.IsValid()
              && f.originalFileName == data.fileName
              && f.fileName == Paths.GenerateName(token, data.fileName)
              && f.fileType == data.fileType
              && f.uploadedBy == data.user && f.expireAt == data.expireAt && f.reminder == data.reminder
              && f.attachment == Some(Attachment(Paths.UploadPath(f.fileName), None))
    ensures r.Ok? ==> (r.value.presignedData.RemotePost? <==> cfg.UploadsToS3())
    ensures r.Ok? && cfg.UploadsToS3() ==> sign(StartPostRequest(cfg, data, token)) == Ok(r.value.presignedData.post)
    ensures r.Ok? && !cfg.UploadsToS3() ==> r.value.presignedData == LocalUrl(Paths.LocalUploadUrl(cfg.appDomain, cfg.mount, newId))
    ensures r.Ok? <==>
              && Storable(store, PendingRecord(data, token, newId, now), true)
              && (cfg.UploadsToS3() ==> sign(StartPostRequest(cfg, data, token)).Ok?)
    ensures cfg.UploadsToS3() && sign(StartPostRequest(cfg, data, token)).Err? ==> r.Err?
    ensures Storable(store, PendingRecord(data, token, newId, now), true) &&
            cfg.UploadsToS3() && sign(StartPostRequest(cfg, data, token)).Err? ==>
              r == Err(sign(StartPostRequest(cfg, data, token)).error)
    ensures Consistent(store) && r.Ok? ==> Consistent(r.value.store)
  {
    var pending := PendingRecord(data, token, newId, now);
    var path := Paths.UploadPath(pending.fileName);
    var rec := pending.(attachment := Some(Attachment(path, None)));
    assert Storable(store, rec, true) == Storable(store, pending, true);
    var s :- CleanAndSave(store, rec, true, now);
    var presigned :-
      if cfg.UploadsToS3() then
        var post :- ObjectStore.GeneratePresignedPost(cfg, path, rec.fileType, sign);
        Ok(RemotePost(post))
      else Ok(LocalUrl(Paths.LocalUploadUrl(cfg.appDomain, cfg.mount, newId)));
    if Consistent(store) then WriteKeepsConsistent(store, rec, true, now); Ok(Started(s, s[newId], presigned))
    else Ok(Started(s, s[newId], presigned))
  }

  /** The key `start` hands out in local mode is the primary key of the record it
      stored: posting to that URL reaches that record. */
  lemma StartLocalUrlNamesRecord(store: Store, cfg: Config, data: StartData, token: Token, newId: Id, now: Time,
                                 sign: ObjectStore.PostRequest -> Result<ObjectStore.PresignedPost>)
    requires !cfg.UploadsToS3()
    requires Start(store, cfg, data, token, newId, now, sign).Ok?
    ensures var st := Start(store, cfg, data, token, newId, now, sign).value;
            && Paths.ResolveLocalUploadUrl(cfg.appDomain, cfg.mount, st.presignedData.url) == Some(st.file.id)
            && st.file.id in st.store
  {
    IdIsOneSegment(newId);
    Paths.LocalUploadUrlRoundTrip(cfg.appDomain, cfg.mount, newId, "");
  }

  /** A token whose generated name no stored record has: one that begins no stored
      `file_name`. */
  predicate TokenFresh(store: Store, token: Token) {
    forall id | id in store :: |store[id].fileName| < 32 || store[id].fileName[..32] != token
  }

  /** With a fresh key and a fresh token, `start` on a valid request fails only when
      presigning does. */
  lemma StartWithFreshToken(store: Store, cfg: Config, data: StartData, token: Token, newId: Id, now: Time,
                            sign: ObjectStore.PostRequest -> Result<ObjectStore.PresignedPost>)
    requires newId !in store && TokenFresh(store, token)
    requires data.fileName != "" && data.fileType != "" && |data.fileType| <= MaxCharFieldLength
    requires |Paths.GenerateName(token, data.fileName)| <= MaxCharFieldLength
    ensures Start(store, cfg, data, token, newId, now, sign).Ok? <==>
              (cfg.UploadsToS3() ==> sign(StartPostRequest(cfg, data, token)).Ok?)
  {
    var name := Paths.GenerateName(token, data.fileName);
    assert name[..32] == token;
    forall id | id in store
      ensures store[id].fileName != name
    {
      assert |store[id].fileName| < 32 || store[id].fileName[..32] != name[..32];
    }
  }

  /** `FileDirectUploadService.finish`: completion is set to now and nothing else of
      the record changes; the owner is not consulted. */
  function Finish(store: Store, file: Storage, now: Time): (r: Result<Saved>)
    ensures r.Ok? <==> FieldsValid(file) && NameFree(store, file)
    ensures r.Ok? ==> r.value.file == file.(uploadFinishedAt := Some(now), updatedAt := now)
    ensures r.Ok? ==> r.value.file.IsValid()
    ensures r.Ok? ==> r.value.store == store[file.id := r.value.file]
    ensures r.Err? ==> r.error.ValidationError? || r.error.IntegrityError?
    ensures Consistent(store) && r.Ok? ==> Consistent(r.value.store)
  {
    var rec := file.(uploadFinishedAt := Some(now));
    var s :- CleanAndSave(store, rec, false, now);
    if Consistent(store) then WriteKeepsConsistent(store, rec, false, now); Ok(Saved(s, s[file.id]))
    else Ok(Saved(s, s[file.id]))
  }

  /** A stored record of a consistent table always finishes. */
  lemma FinishStoredRecord(store: Store, id: Id, now: Time)
    requires Consistent(store) && id in store
    ensures Finish(store, store[id], now).Ok?
  {
    assert store[id].id == id;
  }

  /** Finishing twice leaves the record complete, and the table as one finish at the
      later time would. */
  lemma FinishTwice(store: Store, id: Id, t1: Time, t2: Time)
    requires Consistent(store) && id in store
    ensures Finish(store, store[id], t1).Ok?
    ensures var once := Finish(store, store[id], t1).value;
            && Finish(once.store, once.store[id], t2).Ok?
            && Finish(once.store, once.store[id], t2).value.file.IsValid()
            && Finish(once.store, once.store[id], t2) == Finish(store, store[id], t2)
  {
    FinishStoredRecord(store, id, t1);
    var once := Finish(store, store[id], t1).value;
    assert store[id].id == id;
    FinishStoredRecord(once.store, id, t2);
    FinishStoredRecord(store, id, t2);
    var twice := Finish(once.store, once.store[id], t2).value;
    var direct := Finish(store, store[id], t2).value;
    assert twice.file == direct.file;
    assert twice.store == direct.store;
  }

  /** `FileDirectUploadService.upload_local`: the size check, then the bytes as the
      attachment, stored under the name Django derives from `files/<file_name>`;
      completion is left as it was. */
  function UploadLocal(store: Store, cfg: Config, file: Storage, upload: Upload, now: Time): (r: Result<Saved>)
    ensures upload.Size() > cfg.maxSize ==> r == Err(ValidationError(FileTooBig))
    ensures r.Ok? <==>
              upload.Size() <= cfg.maxSize && FieldsValid(file) && NameFree(store, file) && StorageNames.SavedName(file.fileName).Ok?
    ensures r.Ok? ==>
              r.value.file == WithUpload(file, StorageNames.SavedName(file.fileName).value, upload.content).(updatedAt := now)
    ensures r.Ok? ==> r.value.file.uploadFinishedAt == file.uploadFinishedAt
    ensures r.Ok? ==> r.value.store == store[file.id := r.value.file]
    ensures r.Err? ==> r.error.ValidationError? || r.error.SuspiciousFileOperation? || r.error.IntegrityError?
    ensures Consistent(store) && r.Ok? ==> Consistent(r.value.store)
  {
    var sizeCheck := ValidateFileSize(upload.Size(), cfg.maxSize);
    :- sizeCheck;
    var rec := file.(attachment := Some(Attachment(upload.name, Some(upload.content))));
    SaveUpload(store, rec, upload.content, false, now)
  }

  /** The attachment written by a local upload is named after the record: for a
      `file_name` without '/' or '\\' it is `files/` and that name as
      `get_valid_name` cleans it, so a `file_name` the cleaning leaves alone can be
      read back from it; whatever the `file_name`, its last component is clean. */
  lemma UploadLocalPathNamesRecord(store: Store, cfg: Config, file: Storage, upload: Upload, now: Time)
    requires UploadLocal(store, cfg, file, upload, now).Ok?
    ensures var f := UploadLocal(store, cfg, file, upload, now).value.file;
            && StorageNames.IsValidName(StorageNames.LastComponent(f.attachment.value.name))
            && ('/' !in f.fileName && '\\' !in f.fileName ==>
                  && StorageNames.ValidName(f.fileName).Ok?
                  && Paths.FileNameOfUploadPath(f.attachment.value.name) == Some(StorageNames.ValidName(f.fileName).value))
            && (StorageNames.IsValidName(f.fileName) ==> Paths.FileNameOfUploadPath(f.attachment.value.name) == Some(f.fileName))
  {
    var f := UploadLocal(store, cfg, file, upload, now).value.file;
    assert f.fileName == file.fileName;
    assert f.attachment.value.name == StorageNames.SavedName(file.fileName).value;
    StorageNames.SavedNameNamesFile(file.fileName);
  }

  /** A record after a local upload has a URL: that of its stored name in the
      storage, behind `APP_DOMAIN` unless the app stores on S3. */
  lemma UploadLocalGivesUrl(store: Store, cfg: Config, file: Storage, upload: Upload, now: Time, storageUrl: string -> string)
    requires UploadLocal(store, cfg, file, upload, now).Ok?
    ensures var f := UploadLocal(store, cfg, file, upload, now).value.file;
            var path := StorageNames.SavedName(file.fileName).value;
            && FileUrl(cfg, f, storageUrl).Ok?
            && FileUrl(cfg, f, storageUrl).value ==
               if cfg.uploadStorage == S3Storage then storageUrl(path) else cfg.appDomain + storageUrl(path)
  {
    var f := UploadLocal(store, cfg, file, upload, now).value.file;
    var path := StorageNames.SavedName(file.fileName).value;
    assert f.attachment.value.name == path;
    StorageNames.ValidNameFixedPoints(StorageNames.LastComponent(path));
    assert path != "";
    if cfg.uploadStorage != S3Storage {
      var url := FileUrl(cfg, f, storageUrl).value;
      assert url == url[..|cfg.appDomain|] + url[|cfg.appDomain|..];
    }
  }
}

=== FILE: settings.dfy ===
/** ktg_storage/client.py, configuration half: the fail-fast settings check and the
    S3 credentials it produces, plus the typed configuration the services read. */
module Settings {
  import opened Common

  /** A value in the Django settings module. */
  datatype Value = Text(text: string) | Number(number: int) | Flag(flag: bool)

  /** The settings module: a setting is present exactly when its name is a key. */
  type SettingsModule = map<string, Value>

  /** The required names absent from the settings, in the order they were required
      (repeated as often as they were required). */
  function Missing(required: seq<string>, settings: SettingsModule): (missing: seq<string>)
    ensures |missing| <= |required|
    ensures forall i | 0 <= i < |missing| :: missing[i] in required && missing[i] !in settings
    ensures forall i | 0 <= i < |required| :: required[i] !in settings ==> required[i] in missing
  {
    if |required| == 0 then []
    else (if required[0] in settings then [] else [required[0]]) + Missing(required[1..], settings)
  }

  /** Missing names keep their input order: the absent names of a concatenation are
      the absent names of each part, one after the other. */
  lemma {:induction false} MissingKeepsOrder(a: seq<string>, b: seq<string>, settings: SettingsModule)
    ensures Missing(a + b, settings) == Missing(a, settings) + Missing(b, settings)
    decreases |a|
  {
    if |a| == 0 {
      assert a + b == b;
    } else {
      assert (a + b)[1..] == a[1..] + b;
      MissingKeepsOrder(a[1..], b, settings);
    }
  }

  /** `", ".join(parts)` for a separator `sep`. */
  function Join(parts: seq<string>, sep: string): string
    decreases |parts|
  {
    if |parts| == 0 then ""
    else if |parts| == 1 then parts[0]
    else parts[0] + sep + Join(parts[1..], sep)
  }

  const DefaultMissingPrefix: string := "Required settings not found."

  function MissingMessage(prefix: string, missing: seq<string>): string {
    (if prefix == "" then DefaultMissingPrefix else prefix) + " Could not find: " + Join(missing, ", ")
  }

  /** The names of `required`, as a set. */
  function Names(required: seq<string>): set<string> {
    set i | 0 <= i < |required| :: required[i]
  }

  /** `assert_settings`: the value of every required setting, or one error naming
      every absent one. */
  function AssertSettings(required: seq<string>, settings: SettingsModule, prefix: string): (r: Result<map<string, Value>>)
    ensures r.Ok? <==> forall i | 0 <= i < |required| :: required[i] in settings
    ensures r.Ok? ==> r.value.Keys == Names(required)
    ensures r.Ok? ==> forall k | k in r.value :: k in settings && r.value[k] == settings[k]
    ensures r.Err? ==> r.error == ImproperlyConfigured(MissingMessage(prefix, Missing(required, settings)))
  {
    var missing := Missing(required, settings);
    if |missing| > 0 then Err(ImproperlyConfigured(MissingMessage(prefix, missing)))
    else Ok(map k | k in Names(required) :: settings[k])
  }

  /** Every part of a joined string occurs in it. */
  lemma {:induction false} JoinContainsParts(parts: seq<string>, sep: string, i: int)
    requires 0 <= i < |parts|
    ensures Occurs(parts[i], Join(parts, sep))
    decreases |parts|
  {
    var j := Join(parts, sep);
    if i == 0 {
      assert j[0..|parts[0]|] == parts[0];
      assert OccursAt(parts[0], j, 0);
    } else {
      JoinContainsParts(parts[1..], sep, i - 1);
      assert parts[1..][i - 1] == parts[i];
      OccursAfter(parts[i], parts[0] + sep, Join(parts[1..], sep));
    }
  }

  /** The error names every absent setting. */
  lemma AssertSettingsNamesMissing(required: seq<string>, settings: SettingsModule, prefix: string, name: string)
    requires name in required && name !in settings
    ensures AssertSettings(required, settings, prefix).Err?
    ensures Occurs(name, AssertSettings(required, settings, prefix).error.message)
  {
    var missing := Missing(required, settings);
    var i :| 0 <= i < |required| && required[i] == name;
    assert name in missing;
    var m :| 0 <= m < |missing| && missing[m] == name;
    JoinContainsParts(missing, ", ", m);
    OccursAfter(name, (if prefix == "" then DefaultMissingPrefix else prefix) + " Could not find: ", Join(missing, ", "));
  }

  /** The twelve settings `s3_get_credentials` requires. */
  const S3RequiredSettings: seq<string> := [
    "AWS_ACCESS_KEY_ID",
    "AWS_SECRET_ACCESS_KEY",
    "AWS_S3_REGION_NAME",
    "AWS_STORAGE_BUCKET_NAME",
    "AWS_DEFAULT_ACL",
    "AWS_PRESIGNED_EXPIRY",
    "FILE_MAX_SIZE",
    "FILE_UPLOAD_STORAGE",
    "ALLOW_AUTHENTICATION",
    "APP_DOMAIN",
    "IS_USING_LOCAL_STORAGE",
    "STATIC_LOCATION"
  ]

  const S3MissingPrefix: string := "S3 credentials not found."

  /** `S3Credentials`: the dataclass copies the values as they are, whatever their type. */
  datatype S3Credentials = S3Credentials(
    accessKeyId: Value,
    secretAccessKey: Value,
    regionName: Value,
    bucketName: Value,
    defaultAcl: Value,
    presignedExpiry: Value,
    maxSize: Value)

  /** `s3_get_credentials`: fails unless all twelve settings exist, and keeps seven. */
  function S3GetCredentials(settings: SettingsModule): (r: Result<S3Credentials>)
    ensures r.Ok? <==> forall i | 0 <= i < |S3RequiredSettings| :: S3RequiredSettings[i] in settings
    ensures r.Ok? ==>
              && "AWS_ACCESS_KEY_ID" in settings && r.value.accessKeyId == settings["AWS_ACCESS_KEY_ID"]
              && "AWS_SECRET_ACCESS_KEY" in settings && r.value.secretAccessKey == settings["AWS_SECRET_ACCESS_KEY"]
              && "AWS_S3_REGION_NAME" in settings && r.value.regionName == settings["AWS_S3_REGION_NAME"]
              && "AWS_STORAGE_BUCKET_NAME" in settings && r.value.bucketName == settings["AWS_STORAGE_BUCKET_NAME"]
              && "AWS_DEFAULT_ACL" in settings && r.value.defaultAcl == settings["AWS_DEFAULT_ACL"]
              && "AWS_PRESIGNED_EXPIRY" in settings && r.value.presignedExpiry == settings["AWS_PRESIGNED_EXPIRY"]
              && "FILE_MAX_SIZE" in settings && r.value.maxSize == settings["FILE_MAX_SIZE"]
    ensures r.Err? ==> r.error == ImproperlyConfigured(MissingMessage(S3MissingPrefix, Missing(S3RequiredSettings, settings)))
  {
    var values :- AssertSettings(S3RequiredSettings, settings, S3MissingPrefix);
    assert S3RequiredSettings[0] in values && S3RequiredSettings[1] in values;
    assert S3RequiredSettings[2] in values && S3RequiredSettings[3] in values;
    assert S3RequiredSettings[4] in values && S3RequiredSettings[5] in values;
    assert S3RequiredSettings[6] in values;
    Ok(S3Credentials(
      values["AWS_ACCESS_KEY_ID"],
      values["AWS_SECRET_ACCESS_KEY"],
      values["AWS_S3_REGION_NAME"],
      values["AWS_STORAGE_BUCKET_NAME"],
      values["AWS_DEFAULT_ACL"],
      values["AWS_PRESIGNED_EXPIRY"],
      values["FILE_MAX_SIZE"]))
  }

  /** `FileUploadStorage.S3`. */
  const S3Storage: string := "s3"

  /** The settings the services and the manager read, once present and typed. */
  datatype Config = Config(
    uploadStorage: string,   // FILE_UPLOAD_STORAGE
    debug: bool,             // DEBUG
    appDomain: string,       // APP_DOMAIN
    mount: string,           // the URL prefix the project mounts the app's URLconf under
    maxSize: int,            // FILE_MAX_SIZE, in bytes
    bucketName: string,      // AWS_STORAGE_BUCKET_NAME
    acl: string,             // AWS_DEFAULT_ACL
    presignedExpiry: int)    // AWS_PRESIGNED_EXPIRY, in seconds
  {
    /** `start` hands out a presigned S3 POST unless the app is in debug with local storage. */
    predicate UploadsToS3() {
      uploadStorage == S3Storage || !debug
    }
  }
}

=== FILE: storagenames.dfy ===
/** The name under which Django 4.2 hands an uploaded file to the storage: what
    `FieldFile.save` makes of the path `upload_to` returns, through
    `FileField.generate_filename`, `validate_file_name`, the storage's
    `generate_filename` and `get_valid_name`. */
module StorageNames {
  import opened Common
  import opened Text
  import opened Uuids
  import opened Paths

  /** A character of Python's `\w` in a `str` pattern: ASCII letters, digits and
      `_`, and beyond ASCII every character that is not whitespace. */
  predicate IsWordChar(c: char) {
    || c == '_' || '0' <= c <= '9' || 'a' <= c <= 'z' || 'A' <= c <= 'Z'
    || (c as int >= 0x80 && !IsSpace(c))
  }

  /** A character of the class `[-\w.]` that `get_valid_name` keeps. */
  predicate IsNameChar(c: char) {
    c == '-' || c == '.' || IsWordChar(c)
  }

  /** A name made of `[-\w.]` characters only. */
  predicate IsCleanName(s: string) {
    forall i | 0 <= i < |s| :: IsNameChar(s[i])
  }

  /** A name `get_valid_name` and `validate_file_name` refuse. */
  predicate Unusable(s: string) {
    s == "" || s == "." || s == ".."
  }

  /** The part of a path after its last '/'. */
  function LastComponent(s: string): string {
    s[LastIndexOf(s, '/') + 1..]
  }

  /** `.replace(" ", "_")` followed by `re.sub(r"(?u)[^-\w.]", "", ...)`: every
      space becomes `_` and every other character outside `[-\w.]` is dropped. */
  function CleanChars(s: string): (r: string)
    ensures |r| <= |s|
    ensures IsCleanName(r)
  {
    if s == "" then ""
    else (if s[0] == ' ' then "_" else if IsNameChar(s[0]) then [s[0]] else "") + CleanChars(s[1..])
  }

  /** `get_valid_name`: the name stripped and cleaned; SuspiciousFileOperation when
      that leaves "", "." or "..". */
  function ValidName(name: string): (r: Result<string>)
    ensures r.Ok? ==> IsCleanName(r.value) && !Unusable(r.value) && |r.value| <= |name|
    ensures r.Err? ==> r.error.SuspiciousFileOperation?
  {
    var s := CleanChars(Strip(name));
    if Unusable(s) then Err(SuspiciousFileOperation("Could not derive file name from '" + name + "'"))
    else Ok(s)
  }

  lemma {:induction false} CleanCharsKeeps(s: string)
    requires IsCleanName(s) && ' ' !in s
    ensures CleanChars(s) == s
    decreases |s|
  {
    if s != "" {
      assert IsNameChar(s[0]) && s[0] != ' ';
      CleanCharsKeeps(s[1..]);
      assert s == [s[0]] + s[1..];
    }
  }

  lemma {:induction false} CleanCharsAppend(a: string, b: string)
    ensures CleanChars(a + b) == CleanChars(a) + CleanChars(b)
    decreases |a|
  {
    if a != "" {
      assert (a + b)[0] == a[0];
      assert (a + b)[1..] == a[1..] + b;
      CleanCharsAppend(a[1..], b);
    } else {
      assert a + b == b;
    }
  }

  /** A character of `[-\w.]` is neither whitespace nor a separator. */
  lemma NameCharIsPlain(c: char)
    requires IsNameChar(c)
    ensures !IsSpace(c) && c != '/' && c != '\\'
  {
  }

  /** `get_valid_name` leaves a name as it is exactly when the name is usable and
      made of `[-\w.]` characters only. */
  lemma ValidNameFixedPoints(s: string)
    ensures IsValidName(s) <==> !Unusable(s) && IsCleanName(s)
  {
    if !Unusable(s) && IsCleanName(s) {
      NameCharIsPlain(s[0]);
      NameCharIsPlain(s[|s| - 1]);
      StripKeeps(s);
      forall i | 0 <= i < |s| ensures s[i] != ' ' {
        NameCharIsPlain(s[i]);
      }
      CleanCharsKeeps(s);
    }
  }

  /** Cleaning a cleaned name changes nothing more. */
  lemma ValidNameIdempotent(s: string)
    requires ValidName(s).Ok?
    ensures ValidName(ValidName(s).value) == ValidName(s)
  {
    ValidNameFixedPoints(ValidName(s).value);
  }

  /** A name `get_valid_name` returns as it is. */
  predicate IsValidName(s: string) {
    ValidName(s) == Ok(s)
  }

  /** `str.replace("\\", "/")`. */
  function Slashed(s: string): (r: string)
    ensures |r| == |s|
  {
    seq(|s|, i requires 0 <= i < |s| => if s[i] == '\\' then '/' else s[i])
  }

  /** Backslash conversion changes backslashes and nothing else. */
  lemma SlashedAt(s: string, i: int)
    requires 0 <= i < |s|
    ensures Slashed(s)[i] == if s[i] == '\\' then '/' else s[i]
  {
  }

  lemma SlashedPlain(s: string)
    requires '\\' !in s
    ensures Slashed(s) == s
  {
  }

  /** The '/'-separated components of a path, the empty ones included. */
  function Segments(s: string): (r: seq<string>)
    decreases |s|
  {
    var k := LastIndexOf(s, '/');
    if k < 0 then [s] else Segments(s[..k]) + [s[k + 1..]]
  }

  /** The components joined by '/'. */
  function Join(xs: seq<string>): string {
    if |xs| == 0 then ""
    else if |xs| == 1 then xs[0]
    else Join(xs[..|xs| - 1]) + "/" + xs[|xs| - 1]
  }

  /** The components `normpath` keeps of a relative path with no `..`: not the
      empty ones and not `.`. */
  function Kept(xs: seq<string>): seq<string> {
    if |xs| == 0 then []
    else Kept(xs[..|xs| - 1]) + (if xs[|xs| - 1] == "" || xs[|xs| - 1] == "." then [] else [xs[|xs| - 1]])
  }

  lemma JoinPair(a: string, b: string)
    ensures Join([a] + [b]) == a + "/" + b
  {
    var xs := [a] + [b];
    assert xs[..1] == [a];
  }

  /** A component without '/' appended to a path is its final component. */
  lemma SegmentsAppend(a: string, b: string)
    requires '/' !in b
    ensures Segments(a + "/" + b) == Segments(a) + [b]
  {
    var s := a + "/" + b;
    forall j | |a| < j < |s| ensures s[j] != '/' {
      assert s[j] == b[j - |a| - 1];
    }
    LastIndexOfIs(s, '/', |a|);
    assert s[..|a|] == a;
    assert s[|a| + 1..] == b;
  }

  /** The last component of a joined path is the one appended last. */
  lemma LastComponentOfJoin(xs: seq<string>, v: string)
    requires '/' !in v
    ensures LastComponent(Join(xs + [v])) == v
  {
    var r := Join(xs + [v]);
    if |xs| == 0 {
      assert xs + [v] == [v];
      LastIndexOfIs(r, '/', -1);
    } else {
      assert (xs + [v])[..|xs|] == xs;
      var p := Join(xs);
      assert r == p + "/" + v;
      forall j | |p| < j < |r| ensures r[j] != '/' {
        assert r[j] == v[j - |p| - 1];
      }
      LastIndexOfIs(r, '/', |p|);
    }
  }

  /** `validate_file_name(path, allow_relative_path=True)`: the last component may
      not be "", "." or "..", and the path may be neither absolute nor hold a `..`
      component. */
  function ValidateFileName(path: string): (o: Outcome)
    ensures o.Fail? ==> o.error.SuspiciousFileOperation?
  {
    if Unusable(LastComponent(path)) then
      Fail(SuspiciousFileOperation("Could not derive file name from '" + path + "'"))
    else if (|path| > 0 && path[0] == '/') || ".." in Segments(path) then
      Fail(SuspiciousFileOperation("Detected path traversal attempt in '" + path + "'"))
    else Pass
  }

  /** `normpath` of the directory part joined with a last component: the empty and
      `.` components of the directory go. */
  function Normalized(dir: string, v: string): (r: string)
    requires '/' !in v
    ensures LastComponent(r) == v
  {
    LastComponentOfJoin(Kept(Segments(dir)), v);
    Join(Kept(Segments(dir)) + [v])
  }

  lemma NormalizedEndsClean(dir: string, v: string)
    requires IsCleanName(v) && !Unusable(v) && '/' !in v
    ensures IsValidName(LastComponent(Normalized(dir, v)))
  {
    ValidNameFixedPoints(v);
  }

  /** The storage's `generate_filename` of `files/<fileName>`: backslashes become
      '/', the directory part may not hold a `..` component, the last component is
      replaced by its `get_valid_name` and the path is normalised. The last
      component of the result is one `get_valid_name` leaves alone. */
  function GenerateFilename(fileName: string): (r: Result<string>)
    ensures r.Err? ==> r.error.SuspiciousFileOperation?
    ensures r.Ok? ==> IsValidName(LastComponent(r.value))
  {
    var q := Slashed(UploadPath(fileName));
    SlashedAt(UploadPath(fileName), 5);
    var k := LastIndexOf(q, '/');
    var dir := q[..k];
    if ".." in Segments(dir) then Err(SuspiciousFileOperation("Detected path traversal attempt in '" + dir + "'"))
    else
      var v :- ValidName(q[k + 1..]);
      NameCharsArePlain(v);
      NormalizedEndsClean(dir, v);
      Ok(Normalized(dir, v))
  }

  /** The name `FieldFile.save` hands the storage for a record whose `upload_to`
      path is `files/<fileName>`: the path is validated, then named by the
      storage. Every failure is a SuspiciousFileOperation, and the last component
      of a saved name is one `get_valid_name` leaves alone. */
  function SavedName(fileName: string): (r: Result<string>)
    ensures r.Err? ==> r.error.SuspiciousFileOperation?
    ensures r.Ok? ==> IsValidName(LastComponent(r.value))
  {
    var check := ValidateFileName(UploadPath(fileName));
    :- check;
    GenerateFilename(fileName)
  }

  /** A clean name holds no whitespace and no separator. */
  lemma NameCharsArePlain(s: string)
    requires IsCleanName(s)
    ensures '/' !in s && '\\' !in s && ' ' !in s
  {
    forall i | 0 <= i < |s| ensures s[i] != '/' && s[i] != '\\' && s[i] != ' ' {
      NameCharIsPlain(s[i]);
    }
  }

  /** For a `file_name` with neither '/' nor '\\' the storage name is `files/` and
      the name as `get_valid_name` cleans it, and saving fails exactly when the
      cleaning does. */
  lemma SavedNameOfPlainName(fileName: string)
    requires '/' !in fileName && '\\' !in fileName
    ensures SavedName(fileName).Ok? <==> ValidName(fileName).Ok?
    ensures SavedName(fileName).Ok? ==> SavedName(fileName).value == UploadPath(ValidName(fileName).value)
  {
    PlainUploadPath(fileName);
    if Unusable(fileName) {
      UnusableStaysUnusable(fileName);
    } else {
      PlainGenerateFilename(fileName);
    }
  }

  /** The upload path of a name without '/' has one separator, after `files`. */
  lemma PlainUploadPath(fileName: string)
    requires '/' !in fileName
    ensures var path := UploadPath(fileName);
            && LastIndexOf(path, '/') == 5 && path[6..] == fileName
            && Segments(path) == ["files", fileName]
            && (ValidateFileName(path).Pass? <==> !Unusable(fileName))
  {
    var path := UploadPath(fileName);
    assert path == "files" + "/" + fileName;
    forall j | 5 < j < |path| ensures path[j] != '/' {
      assert path[j] == fileName[j - 6];
    }
    LastIndexOfIs(path, '/', 5);
    assert path[6..] == fileName;
    LastIndexOfIs("files", '/', -1);
    SegmentsAppend("files", fileName);
  }

  /** The storage names `files/<fileName>` for a name with neither '/' nor '\\' as
      `files/` and its `get_valid_name`. */
  lemma PlainGenerateFilename(fileName: string)
    requires '/' !in fileName && '\\' !in fileName
    ensures GenerateFilename(fileName).Ok? <==> ValidName(fileName).Ok?
    ensures GenerateFilename(fileName).Ok? ==> GenerateFilename(fileName).value == UploadPath(ValidName(fileName).value)
  {
    PlainSlashed(fileName);
    if ValidName(fileName).Ok? {
      var v := ValidName(fileName).value;
      NameCharsArePlain(v);
      NormalizedUnderFiles(v);
    }
  }

  /** Backslash conversion leaves the upload path of a plain name alone, and its
      directory part is `files`. */
  lemma PlainSlashed(fileName: string)
    requires '/' !in fileName && '\\' !in fileName
    ensures var q := Slashed(UploadPath(fileName));
            && LastIndexOf(q, '/') == 5 && q[..5] == "files" && q[6..] == fileName
            && Segments("files") == ["files"]
  {
    PlainUploadPath(fileName);
    var path := UploadPath(fileName);
    assert '\\' !in path by {
      forall j | 0 <= j < |path| ensures path[j] != '\\' {
        if j >= 6 {
          assert path[j] == fileName[j - 6];
        }
      }
    }
    SlashedPlain(path);
    LastIndexOfIs("files", '/', -1);
  }

  lemma NormalizedUnderFiles(v: string)
    requires '/' !in v
    ensures Normalized("files", v) == UploadPath(v)
  {
    LastIndexOfIs("files", '/', -1);
    assert Segments("files") == ["files"];
    assert ["files"][..0] == [];
    assert Kept(["files"]) == ["files"];
    JoinPair("files", v);
    assert Normalized("files", v) == Join(["files"] + [v]);
    assert "files" + "/" + v == UploadDirectory + v;
  }

  /** A saved name leads back to the `file_name` it was made from: for a name
      without '/' or '\\' it is the upload path of the cleaned name, and so of the
      name itself when the cleaning leaves it alone. */
  lemma SavedNameNamesFile(fileName: string)
    requires SavedName(fileName).Ok?
    ensures var n := SavedName(fileName).value;
            && IsValidName(LastComponent(n))
            && ('/' !in fileName && '\\' !in fileName ==>
                  ValidName(fileName).Ok? && FileNameOfUploadPath(n) == Some(ValidName(fileName).value))
            && (IsValidName(fileName) ==> FileNameOfUploadPath(n) == Some(fileName))
  {
    if '/' !in fileName && '\\' !in fileName {
      SavedPlainName(fileName);
    }
    if IsValidName(fileName) {
      ValidNameFixedPoints(fileName);
      NameCharsArePlain(fileName);
      SavedPlainName(fileName);
    }
  }

  lemma SavedPlainName(fileName: string)
    requires SavedName(fileName).Ok? && '/' !in fileName && '\\' !in fileName
    ensures ValidName(fileName).Ok? && FileNameOfUploadPath(SavedName(fileName).value) == Some(ValidName(fileName).value)
  {
    SavedNameOfPlainName(fileName);
    UploadPathRoundTrip(ValidName(fileName).value, "");
  }

  /** "", "." and ".." are refused by `get_valid_name` as well. */
  lemma UnusableStaysUnusable(s: string)
    requires Unusable(s)
    ensures ValidName(s).Err?
  {
    if s != "" {
      StripKeeps(s);
      CleanCharsKeeps(s);
    }
  }

  /** Whitespace-free leading characters survive stripping. */
  lemma StripKeepsHead(s: string, n: nat)
    requires 1 <= n <= |s|
    requires forall i | 0 <= i < n :: !IsSpace(s[i])
    ensures |Strip(s)| >= n && Strip(s)[..n] == s[..n]
  {
    assert LeadingSpaces(s) == 0;
    assert s[0..] == s;
    var b := TrailingSpaces(s);
    assert !IsSpace(s[n - 1]);
    assert b <= |s| - n;
  }

  /** A name generated from an original without backslashes is always saved: under
      `files/`, as its cleaned form, which still begins with the token. */
  lemma GeneratedNameIsSaved(token: Token, original: string)
    requires '\\' !in original
    ensures var name := GenerateName(token, original);
            && ValidName(name).Ok?
            && |ValidName(name).value| >= 32 && ValidName(name).value[..32] == token
            && SavedName(name) == Ok(UploadPath(ValidName(name).value))
  {
    GeneratedNameChars(token, original);
    ValidNameKeepsToken(token, Suffix(original));
    SavedNameOfPlainName(GenerateName(token, original));
  }

  /** Cleaning a name that begins with a token keeps the token. */
  lemma ValidNameKeepsToken(token: Token, ext: string)
    ensures ValidName(token + ext).Ok?
    ensures |ValidName(token + ext).value| >= 32 && ValidName(token + ext).value[..32] == token
  {
    StripKeepsToken(token, ext);
    var t := Strip(token + ext);
    assert t == token + t[32..];
    CleanCharsAfterToken(token, t[32..]);
    var v := CleanChars(t);
    assert v[..32] == token;
    assert !Unusable(v) by {
      assert |v| >= 32;
    }
  }

  lemma StripKeepsToken(token: Token, ext: string)
    ensures |Strip(token + ext)| >= 32 && Strip(token + ext)[..32] == token
  {
    var name := token + ext;
    forall i | 0 <= i < 32 ensures !IsSpace(name[i]) {
      assert name[i] == token[i] && IsLowerHex(token[i]);
    }
    StripKeepsHead(name, 32);
  }

  /** A generated name has no '/', and a backslash only if the original has one. */
  lemma GeneratedNameChars(token: Token, original: string)
    requires '\\' !in original
    ensures '\\' !in GenerateName(token, original)
  {
    var ext := Suffix(original);
    var name := FinalComponent(original);
    FinalComponentChars(original);
    forall j | 0 <= j < |token + ext| ensures (token + ext)[j] != '\\' {
      if j >= 32 {
        assert (token + ext)[j] == ext[j - 32] == name[|name| - |ext| + j - 32];
      } else {
        assert IsLowerHex(token[j]);
      }
    }
  }

  /** A space in an extension reaches the storage as `_`: the attachment of an
      upload named `<stem>.<a> <b>` is `files/<token>.<a>_<b>` while its
      `file_name` keeps the space; `scan.final draft`, say, is stored as
      `files/<token>.final_draft`. */
  lemma SpaceInExtensionBecomesUnderscore(token: Token, stem: string, a: string, b: string)
    requires stem != "" && '/' !in stem && '\\' !in stem
    requires b != "" && IsCleanName(a) && IsCleanName(b) && '.' !in a && '.' !in b
    ensures GenerateName(token, stem + "." + (a + " " + b)) == token + "." + (a + " " + b)
    ensures SavedName(token + "." + (a + " " + b)) == Ok(UploadPath(token + "." + (a + "_" + b)))
  {
    SpacedPartsArePlain(a, b);
    GeneratedNameKeepsExtension(token, stem, a + " " + b);
    SavedSpacedName(token, a, b);
  }

  lemma SavedSpacedName(token: Token, a: string, b: string)
    requires b != "" && IsCleanName(a) && IsCleanName(b) && '.' !in a && '.' !in b
    ensures SavedName(token + "." + (a + " " + b)) == Ok(UploadPath(token + "." + (a + "_" + b)))
  {
    var name := token + "." + (a + " " + b);
    SpacedPartsArePlain(a, b);
    TokenNameIsPlain(token, a + " " + b);
    SavedNameOfPlainName(name);
    ValidSpacedName(token, a, b);
  }

  lemma ValidSpacedName(token: Token, a: string, b: string)
    requires b != "" && IsCleanName(a) && IsCleanName(b)
    ensures ValidName(token + "." + (a + " " + b)) == Ok(token + "." + (a + "_" + b))
  {
    var name := token + "." + (a + " " + b);
    assert name[0] == token[0] && IsLowerHex(token[0]);
    assert name[|name| - 1] == b[|b| - 1];
    NameCharIsPlain(b[|b| - 1]);
    StripKeeps(name);
    CleanedParts(token, a, b);
  }

  lemma SpacedPartsArePlain(a: string, b: string)
    requires IsCleanName(a) && IsCleanName(b) && '.' !in a && '.' !in b
    ensures var ext := a + " " + b;
            '/' !in ext && '.' !in ext && '\\' !in ext
  {
    var ext := a + " " + b;
    NameCharsArePlain(a);
    NameCharsArePlain(b);
    forall j | 0 <= j < |ext| ensures ext[j] != '/' && ext[j] != '.' && ext[j] != '\\' {
      if j < |a| {
        assert ext[j] == a[j];
      } else if j > |a| {
        assert ext[j] == b[j - |a| - 1];
      }
    }
  }

  lemma TokenNameIsPlain(token: Token, ext: string)
    requires '/' !in ext && '\\' !in ext
    ensures var name := token + "." + ext;
            '/' !in name && '\\' !in name
  {
    var name := token + "." + ext;
    forall j | 0 <= j < |name| ensures name[j] != '/' && name[j] != '\\' {
      if j < 32 {
        assert name[j] == token[j] && IsLowerHex(token[j]);
      } else if j > 32 {
        assert name[j] == ext[j - 33];
      }
    }
  }

  /** How the name of that example is cleaned, part by part. */
  lemma CleanedParts(token: Token, a: string, b: string)
    requires IsCleanName(a) && IsCleanName(b)
    ensures CleanChars(token + "." + (a + " " + b)) == token + "." + (a + "_" + b)
  {
    TokenDotIsClean(token);
    CleanCharsAppend(token + ".", a + " " + b);
    CleanedTail(a, b);
  }

  lemma TokenDotIsClean(token: Token)
    ensures CleanChars(token + ".") == token + "."
  {
    var s := token + ".";
    forall i | 0 <= i < |s| ensures IsNameChar(s[i]) && s[i] != ' ' {
      if i < 32 {
        assert s[i] == token[i] && IsLowerHex(token[i]);
      }
    }
    CleanCharsKeeps(s);
  }

  lemma CleanedTail(a: string, b: string)
    requires IsCleanName(a) && IsCleanName(b)
    ensures CleanChars(a + " " + b) == a + "_" + b
  {
    NameCharsArePlain(b);
    CleanCharsKeeps(b);
    CleanedSpaceAfter(a);
    CleanCharsAppend(a + " ", b);
  }

  lemma CleanedSpaceAfter(a: string)
    requires IsCleanName(a)
    ensures CleanChars(a + " ") == a + "_"
  {
    NameCharsArePlain(a);
    CleanCharsKeeps(a);
    SpaceBecomesUnderscore();
    CleanCharsAppend(a, " ");
  }

  lemma SpaceBecomesUnderscore()
    ensures CleanChars(" ") == "_"
  {
    assert " "[1..] == "";
  }

  /** The token of a generated name is kept as it is. */
  lemma CleanCharsAfterToken(token: Token, y: string)
    ensures CleanChars(token + y) == token + CleanChars(y)
  {
    forall i | 0 <= i < 32 ensures IsNameChar(token[i]) && token[i] != ' ' {
      assert IsLowerHex(token[i]);
    }
    CleanCharsKeeps(token);
    CleanCharsAppend(token, y);
  }
}

=== FILE: text.dfy ===
/** Python's whitespace and `str.strip()`, which both the serializer fields and
    Django's file-name cleaning apply. */
module Text {
  import opened Common

  /** Python's `str.isspace()` on one character. */
  predicate IsSpace(c: char) {
    var n := c as int;
    || n == 0x20 || 0x09 <= n <= 0x0d || 0x1c <= n <= 0x1f
    || n == 0x85 || n == 0xa0 || n == 0x1680 || 0x2000 <= n <= 0x200a
    || n == 0x2028 || n == 0x2029 || n == 0x202f || n == 0x205f || n == 0x3000
  }

  /** Nothing but whitespace (the empty string included). */
  predicate Blank(s: string) {
    forall i | 0 <= i < |s| :: IsSpace(s[i])
  }

  /** The number of whitespace characters `s` begins with. */
  function LeadingSpaces(s: string): (n: nat)
    ensures n <= |s|
    ensures forall i | 0 <= i < n :: IsSpace(s[i])
    ensures n < |s| ==> !IsSpace(s[n])
  {
    if |s| == 0 || !IsSpace(s[0]) then 0 else 1 + LeadingSpaces(s[1..])
  }

  /** The number of whitespace characters `s` ends with. */
  function TrailingSpaces(s: string): (n: nat)
    ensures n <= |s|
    ensures forall i | |s| - n <= i < |s| :: IsSpace(s[i])
    ensures n < |s| ==> !IsSpace(s[|s| - 1 - n])
  {
    if |s| == 0 || !IsSpace(s[|s| - 1]) then 0 else 1 + TrailingSpaces(s[..|s| - 1])
  }

  /** `s` is `t` with whitespace only before it (`s[..k]`) and after it. */
  predicate PaddedAt(t: string, s: string, k: int) {
    0 <= k <= |s| - |t| && s[k..k + |t|] == t && Blank(s[..k]) && Blank(s[k + |t|..])
  }

  /** `str.strip()`: the piece of `s` left once whitespace is cut from both ends;
      what is cut is whitespace only. */
  function Strip(s: string): (t: string)
    ensures Blank(s) <==> t == ""
    ensures t != "" ==> !IsSpace(t[0]) && !IsSpace(t[|t| - 1])
    ensures Occurs(t, s)
    ensures exists k | 0 <= k <= |s| - |t| :: PaddedAt(t, s, k)
  {
    var a := LeadingSpaces(s);
    var rest := s[a..];
    var b := TrailingSpaces(rest);
    var t := rest[..|rest| - b];
    StripPieces(s, a, rest, b, t);
    t
  }

  lemma StripPieces(s: string, a: nat, rest: string, b: nat, t: string)
    requires a <= |s| && rest == s[a..] && b <= |rest| && t == rest[..|rest| - b]
    requires forall i | 0 <= i < a :: IsSpace(s[i])
    requires a < |s| ==> !IsSpace(s[a])
    requires forall i | |rest| - b <= i < |rest| :: IsSpace(rest[i])
    requires b < |rest| ==> !IsSpace(rest[|rest| - 1 - b])
    ensures Blank(s) <==> t == ""
    ensures t != "" ==> !IsSpace(t[0]) && !IsSpace(t[|t| - 1])
    ensures Occurs(t, s)
    ensures exists k | 0 <= k <= |s| - |t| :: PaddedAt(t, s, k)
  {
    StripFrame(s, a, rest, b, t);
    if t != "" {
      assert t[0] == s[a];
      StripLast(rest, b, t);
      assert !Blank(s) by {
        assert !IsSpace(s[a]);
      }
    } else {
      BlankAround(s, a);
    }
  }

  lemma StripLast(rest: string, b: nat, t: string)
    requires b < |rest| && !IsSpace(rest[|rest| - 1 - b]) && t == rest[..|rest| - b]
    ensures !IsSpace(t[|t| - 1])
  {
    assert t[|t| - 1] == rest[|rest| - 1 - b];
  }

  /** `t` sits at offset `a` of `s` with whitespace on either side. */
  lemma StripFrame(s: string, a: nat, rest: string, b: nat, t: string)
    requires a <= |s| && rest == s[a..] && b <= |rest| && t == rest[..|rest| - b]
    requires forall i | 0 <= i < a :: IsSpace(s[i])
    requires forall i | |rest| - b <= i < |rest| :: IsSpace(rest[i])
    ensures OccursAt(t, s, a)
    ensures Occurs(t, s)
    ensures PaddedAt(t, s, a)
  {
    assert s[a..a + |t|] == t;
    assert OccursAt(t, s, a);
    var head, tail := s[..a], s[a + |t|..];
    forall i | 0 <= i < |head| ensures IsSpace(head[i]) {
      assert head[i] == s[i];
    }
    assert tail == rest[|rest| - b..];
    forall i | 0 <= i < |tail| ensures IsSpace(tail[i]) {
      assert tail[i] == rest[|rest| - b + i];
    }
  }

  /** A string that is whitespace before and after `a`, with nothing kept. */
  lemma BlankAround(s: string, a: nat)
    requires a <= |s| && Blank(s[..a]) && Blank(s[a..])
    ensures Blank(s)
  {
    forall i | 0 <= i < |s| ensures IsSpace(s[i]) {
      if i < a {
        assert s[..a][i] == s[i];
      } else {
        assert s[a..][i - a] == s[i];
      }
    }
  }

  /** Stripping is idempotent, and leaves alone a string with no whitespace at
      either end. */
  lemma StripIdempotent(s: string)
    ensures Strip(Strip(s)) == Strip(s)
  {
    var t := Strip(s);
    if t != "" {
      StripKeeps(t);
    }
  }

  lemma StripKeeps(t: string)
    requires t != "" && !IsSpace(t[0]) && !IsSpace(t[|t| - 1])
    ensures Strip(t) == t
  {
    assert LeadingSpaces(t) == 0;
    assert t[0..] == t;
    assert TrailingSpaces(t) == 0;
    assert t[..|t|] == t;
  }
}

=== FILE: uuids.dfy ===
/** The two textual forms of a UUID the app uses: `uuid4().hex` as the token in
    generated storage names, and `str(uuid)` as the record id in URLs. */
module Uuids {

  predicate IsLowerHex(c: char) {
    '0' <= c <= '9' || 'a' <= c <= 'f'
  }

  /** `uuid.hex`: 32 lower-case hexadecimal digits. */
  predicate IsHexToken(s: string) {
    |s| == 32 && forall i | 0 <= i < |s| :: IsLowerHex(s[i])
  }

  type Token = s: string | IsHexToken(s) witness "00000000000000000000000000000000"

  predicate IsHyphenPosition(i: int) {
    i == 8 || i == 13 || i == 18 || i == 23
  }

  /** `str(uuid)`: 8-4-4-4-12 lower-case hexadecimal digits separated by hyphens. */
  predicate IsUuidText(s: string) {
    |s| == 36 && forall i | 0 <= i < |s| :: if IsHyphenPosition(i) then s[i] == '-' else IsLowerHex(s[i])
  }

  /** The primary key of a stored file, in the form it takes in URLs and lookups. */
  type Id = s: string | IsUuidText(s) witness "00000000-0000-0000-0000-000000000000"

  /** A record id fits in one URL path segment. */
  lemma IdIsOneSegment(id: Id)
    ensures id != "" && '/' !in id
  {
  }
}
